=== FILE: README.md ===
# Lottery bet service — a Dafny model

The service has three parts.

- **Agency clients (Go).** Each client reads its bet file line by line. It turns each valid line into a record `id,first,last,document,birthdate,number`, groups the records into `;`-separated batch messages, sends each batch, and checks the server's acknowledgement.
- **Server (Go).** The server routes every message it reads:
  - A message containing `Winners, please?` is a winner query.
  - Anything else is a bet batch. The server parses the batch and appends the surviving bets to a CSV store.
  - The server holds a draw barrier. It runs the draw check after each accepted connection. The draw happens only if, at such a check, the number of distinct registered agencies equals the configured count exactly, and the store loads. The draw collects the documents of the winning bets per agency, and from then on the server answers each query with that agency's winners. If more agencies register before a check sees the exact count, or the load fails (its lock is then never released), the draw never happens.
- **Codecs (Go and Python).** Both read frames of the form `<decimal byte length>:<payload>`.

The model states this logic as pure functions over immutable data, plus a few methods for the loops.

- **Sockets.** A socket's incoming side is a list of non-empty deliveries (`Wire.Chunk`). Its outgoing side is a list of per-call write outcomes (`Wire.Write`).
- **Server locks.** Each locked critical section of the server is one atomic transition (`Server.Step`).
- **Store.** The bet store is the append-only sequence of its rows.

| file | module | models |
|---|---|---|
| results.dfy | `Results` | `Option` and `Result` |
| seqs.dfy | `Seqs` | `strings.Split`, `strings.Join`, `strings.Contains`, the `s[0:len(s)-1]` trim, filtering |
| numbers.dfy | `Numbers` | `strconv.Atoi` and `strconv.Itoa` on decimal text; zero-padded digit fields |
| dates.dfy | `Dates` | `time.Parse` and `time.Format` with the layout `2006-01-02` |
| bets.dfy | `Bets` | `Bet`, `NewBet`, `HasWon`, and the rows `StoreBets` writes and `LoadBets` reads |
| wire.dfy | `Wire` | bytes, deliveries, one receive call, the frame format with its reference decoder, the short-write loop |
| go_codec.dfy | `GoCodec` | the client's `ReadMessage` and `SendMessage` |
| py_codec.dfy | `PyCodec` | the server's `read_message` and `send_message` |
| server.dfy | `Server` | routing, batch parsing, the winner query, `canRevealWinners`, the server as a transition system |
| client.dfy | `Client` | record formatting, batch partitioning and the acknowledgement check |

Four behaviours of the code are easy to misread; the model follows the code in each:

- A bet batch is acknowledged with the fixed text `Apuesta almacenada`, not with a count (server/common/server.go:123).
- Answering a winner query after the draw reads the agency's entry and does not remove it. Repeated queries therefore get the same answer (server/common/server.go:142-146).
- The client expects `<k> apuestas almacenadas` (client/common/client.go:174). Against this server that never matches, so no batch is ever confirmed (`Client.NeverConfirmed`).
- The final short batch is sent with `bet` holding the fields of the last line read, even when that line was skipped (client/common/client.go:123, 143). After a successful send the log call reads `bet[2]` (client/common/client.go:162). A last line with fewer than three fields, such as a trailing blank line, therefore makes the client panic before it reads the acknowledgement (`Client.FinalBatchPanics`).

The codec the Go server and client actually call lives in a package `communication_protocol/common`, which is not part of this model. Its signatures differ from client/common/communication_protocol.go. The server and client models therefore take the received payload as a parameter and return the reply they would send. The frame codecs are modelled from client/common/communication_protocol.go and server/common/communication_protocol.py.

## Model

| member | source | states |
|---|---|---|
| Seqs.FirstIndex | client/common/communication_protocol.go:35 | the first position of an element: absent exactly when the element does not occur; otherwise it holds the element and nothing before it does |
| Seqs.Split | server/common/server.go:104-106 | `strings.Split` with a one-character separator: at least one piece, no piece holds the separator, and joining the pieces gives the input back |
| Seqs.SplitJoin | server/common/server.go:104-106 | splitting undoes joining when no part holds the separator |
| Seqs.Contains | server/common/server.go:95 | `strings.Contains` holds exactly when the substring occurs at some position |
| Seqs.TrimTerminated | client/common/client.go:128-135 | accumulating `record;` per record and dropping the last character gives the records joined by `;` |
| Seqs.FilterMapMembers | server/common/server.go:105-117 | a value is kept exactly when some element maps to it |
| Seqs.FilterMapAppend | server/common/server.go:105-117 | filtering distributes over concatenation, so kept values stay in input order |
| Numbers.FormatNat | server/common/utils.go:76 | `Itoa` of a non-negative value is canonical digit text whose value is that number |
| Numbers.FormatInt | server/common/utils.go:76-81 | `Itoa` gives a leading `-` exactly for negative values, followed by canonical digits of the magnitude; `Numbers.ParseFormatInt` reads it back |
| Numbers.ParseInt | server/common/utils.go:32 | `Atoi` succeeds exactly on an optional sign followed by at least one digit; the value is the digits' decimal value, negated after `-`, so unsigned text gives a non-negative value |
| Numbers.ParseFormatInt | server/common/utils.go:32-37 | parsing the text `Itoa` prints gives the number back (utils.go:76, 81) |
| Numbers.FormatDigitsValue | server/common/utils.go:76 | printing the value of a canonical digit text gives that text back |
| Numbers.Pad | server/common/utils.go:80 | a zero-padded field is at least as wide as asked and has the padded value |
| Numbers.PadWidth | server/common/utils.go:80 | a value below 10^width fills exactly width characters |
| Numbers.PadDigitsValue | server/common/utils.go:43 | padding the value of a digit field to its own width restores the field, leading zeros included |
| Dates.ParseDate | server/common/utils.go:43-47 | `time.Parse("2006-01-02")` yields only real dates (month 1-12, day within the month, leap years included) |
| Dates.FormatDate | server/common/utils.go:80 | `Format("2006-01-02")`; `Dates.ParseFormatDate` and `Dates.ParseDateIff` make it the exact inverse of `Dates.ParseDate` on valid dates |
| Dates.ParseFormatDate | server/common/utils.go:80 | a formatted valid date parses back to itself |
| Dates.FormatParseDate | server/common/utils.go:43 | text that parses is exactly the formatting of its date |
| Dates.ParseDateIff | server/common/utils.go:43 | parsing and formatting are inverse: `ParseDate(s) == Some(d)` iff `d` is valid and formats to `s` |
| Bets.NewBet | server/common/utils.go:31-57 | succeeds iff agency and number parse as integers and the birthdate as a date; the agency and number are the parsed integers and the birthdate is the parsed date; names and document are kept verbatim; the birthdate formats back to its text; an agency failure is reported first, then a number failure |
| Bets.HasWon | server/common/utils.go:60-62 | a bet wins exactly when its number is 7574; `Bets.HasWonOfFields` states it for bets built from text |
| Bets.HasWonOfFields | server/common/utils.go:14 | a bet built from text wins exactly when its number text reads as 7574 |
| Bets.WinningText | server/tests/common_test.go:49-62 | a bet whose number is `Itoa(7574)` is created and has won |
| Bets.SampleBet | server/tests/common_test.go:15-47 | the sample fields give a bet of agency 1, number 7500, birthdate 2000-12-20, with names and document kept |
| Bets.BetRow | server/common/utils.go:75-82 | a stored row has six fields |
| Bets.StoreBets | server/common/utils.go:66-94 | storing only appends: old rows are preserved, then one row per bet in list order with the fields agency, first name, last name, document, birthdate, number |
| Bets.NewBetOfRow | server/common/utils.go:75-82 | reading a written row back through `NewBet` yields the same bet |
| Bets.LoadBets | server/common/utils.go:98-124 | a successful load yields at most one bet per row, each well formed |
| Bets.LoadBetsFails | server/common/utils.go:112-120 | the load fails exactly when some row with at least six fields is rejected by `NewBet` |
| Bets.LoadBetsAppend | server/common/utils.go:112-122 | loading two stores one after the other yields the first's bets, then the second's |
| Bets.LoadRows | server/common/utils.go:74-82 | the rows of well-formed bets load back as those bets |
| Bets.StoreLoadRoundTrip | server/common/utils.go:66-124 | after appending well-formed bets to a loadable store, the load yields the old bets followed by the new ones |
| Bets.StoreLoadEmpty | server/tests/common_test.go:64-119 | storing into an empty store and loading returns the same bets, with equal fields, in the same order |
| Wire.Recv | server/common/communication_protocol.py:37 | one receive returns at most the bytes asked for, returns nothing only when the peer has closed, and loses nothing |
| Wire.DelimiterAfterText | server/common/communication_protocol.py:22-27 | a colon-free text followed by `:` puts the first colon right after the text |
| Wire.DelimiterCut | client/common/communication_protocol.go:35 | cutting just after the first colon gives a stream prefix that ends with its only colon, and the unread deliveries hold the rest |
| Wire.Decode | client/common/communication_protocol.go:33-64 | the reference frame reader: no delimiter exactly when the stream has no colon; a payload only when a frame is at the front |
| Wire.DecodeFrame | client/common/communication_protocol.go:33-64 | round trip: a frame `decimal(len(p)):p` followed by anything decodes to `p` |
| Wire.DecodeErrors | client/common/communication_protocol.go:41-56 | a non-integer length is a length error, and a length beyond the bytes present is a truncation |
| Wire.WriteAll | client/common/communication_protocol.go:14-26 | the short-write loop sends a prefix of the message unchanged; it sends all of it unless some write fails, and it never fails while every write succeeds |
| GoCodec.ScanToDelimiter | client/common/communication_protocol.go:35 | consumes whole deliveries until one holds `:`, losing no byte and consuming no colon |
| GoCodec.ReadString | client/common/communication_protocol.go:35-38 | fails exactly when the stream has no colon; otherwise it returns the stream prefix through its first colon and buffers exactly the rest |
| GoCodec.ReadFull | client/common/communication_protocol.go:50-59 | the read loop completes exactly when enough bytes arrive, and then returns the first `total` of them |
| GoCodec.ReadMessage | client/common/communication_protocol.go:33-64 | the result equals the reference decoder on the delivered bytes, however they are split into deliveries |
| GoCodec.SendMessage | client/common/communication_protocol.go:12-30 | writes the message unchanged, with no prefix; it returns the reply read only after the whole message was written; a write error comes only from a failed write |
| GoCodec.ReadFrame | client/common/communication_protocol.go:33-64 | any chunking of a frame yields its payload |
| PyCodec.ReadLength | server/common/communication_protocol.py:22-27 | never returns when the stream has no colon; otherwise the length text is everything before the first colon, and the colon itself is consumed |
| PyCodec.ReadPayload | server/common/communication_protocol.py:35-40 | completes exactly when enough bytes arrive and then holds exactly the first `total_length` of them; a length of zero or less reads nothing |
| PyCodec.ReadMessage | server/common/communication_protocol.py:17-42 | the outcome follows the reference decoder on the delivered bytes: payload, `ValueError`, `ConnectionError`, or no return |
| PyCodec.ReadFrame | server/common/communication_protocol.py:17-42 | any chunking of `str(len(b)):b` decodes to `b` |
| PyCodec.SendMessage | server/common/communication_protocol.py:3-15 | sends the message bytes unchanged, with no prefix, until all are sent; raises only on a failing send |
| Server.Classify | server/common/server.go:95-99 | a payload is a winner query exactly when it contains `Winners, please?` |
| Server.ParseRecord | server/common/server.go:106-116 | one record: skipped below six fields, otherwise `NewBet` of the first six, dropped on error; `Server.ParseRecordOfRow` and `Client.RecordAtServer` pin what it accepts |
| Server.ParseBatch | server/common/server.go:104-117 | the batch handler's parsing: split on `;`, then `Server.ParseRecord` per record in order; `Server.ParseRecordsMembers`, `Server.ParseRecordsAppend` and `Client.BatchAtServer` characterize the result |
| Server.ParseRecords | server/common/server.go:105-117 | the surviving bets are no more than the records and each is well formed |
| Server.ParsedWellFormed | server/common/server.go:111-116 | every bet a record parses to is well formed |
| Server.ParseRecordsAppend | server/common/server.go:105-117 | the bets keep the order of their records |
| Server.ParseRecordsMembers | server/common/server.go:103-119 | a bet is handed to `StoreBets` exactly when some record parses to it |
| Server.ParseRecordOfRow | server/common/server.go:106-111 | a record made of a bet's six fields parses back to that bet |
| Server.HandleStoreBets | server/common/server.go:102-124 | the reply is always `Apuesta almacenada`; the store grows by exactly the parsed bets, old rows untouched, and then loads as the old bets followed by the parsed ones |
| Server.QueryAgency | server/common/server.go:133-139 | the agency is `Atoi` of the text before the first `,`; `Server.HandleAgencyWaiting` pins what each outcome does with it |
| Server.HandleAgencyWaiting | server/common/server.go:132-152 | a non-integer agency gets no reply and changes nothing. Before the draw the agency is registered with an empty entry and told `No winners yet`, other entries unchanged. After it the state is unchanged and the reply is the entry without its last character |
| Server.QueryIdempotent | server/common/server.go:140-152 | asking twice gives the same state and reply as asking once |
| Server.WinningAgenciesCons | server/common/server.go:175-182 | the agencies with winning bets are the first bet's if it won, plus those of the rest |
| Server.AddWinners | server/common/server.go:175-182 | the draw's fold over the loaded bets; `Server.AddWinnersKeys` and `Server.AddWinnersLookup` state its keys and entries |
| Server.AddWinnersKeys | server/common/server.go:175-182 | the draw creates an entry for every agency with a winning bet, including agencies that never asked, and keeps every existing entry |
| Server.AddWinnersLookup | server/common/server.go:175-182 | each entry grows by `document;` for each of its agency's winning bets, in load order |
| Server.CanRevealWinners | server/common/server.go:164-187 | the flag is set iff it was set or the barrier holds (not drawn, waiting count equals agency count) and the store loads; otherwise nothing changes; when it fires, the map gains the winners |
| Server.HandleClientConnection | server/common/server.go:95-99 | a payload holding the marker gets exactly `HandleAgencyWaiting`'s state and reply and leaves the store alone; any other payload leaves the draw state alone, stores exactly `StoreBets(store, ParseBatch(payload))`, and is acknowledged |
| Server.Step | server/common/server.go:64-66 | the atomic steps: a handler on a received payload, or the draw check after an accept; `Server.StepInv`, `Server.QueryRegisters` and `Server.BatchStored` state what they do |
| Server.Run | server/common/server.go:52-69 | the steps in order; `Server.RunAppend` splits a run, and `Server.RunInv` and `Server.BarrierReached` state what runs reach |
| Server.NewServer | server/common/server.go:35-50 | not drawn, no registered agencies, the configured agency count, and an empty store; `Server.InitialInv` shows it satisfies the invariant |
| Server.QueryRegisters | server/common/server.go:148-151 | before the draw, a query naming an agency adds exactly that agency to the registered ones and is told `No winners yet` |
| Server.BatchStored | server/common/server.go:102-120 | a batch step makes the store load as the old bets followed by exactly the parsed ones |
| Server.RunAppend | server/common/server.go:52-69 | running two event lists one after the other is running their concatenation |
| Server.RunQueries | server/common/server.go:132-152 | before the draw, a run of winner queries registers exactly the agencies they name, keeps the store and does not draw |
| Server.QueriesFromNew | server/common/server.go:35-152 | from a new server, winner queries register exactly the agencies they name, on the model's empty, loadable store (see `Server.NewServer` under Left out) |
| Server.DrawCheckFires | server/common/server.go:165-183 | before the draw and with a loadable store, the draw check fires exactly when the number of registered agencies equals the configured count |
| Server.BarrierReached | server/common/server.go:52-187 | the draw is reachable: from a new server with the model's empty, loadable store (see `Server.NewServer` under Left out), winner queries then a draw check reveal the winners exactly when the queries name as many distinct agencies as configured |
| Server.InitialInv | server/common/server.go:35-50 | the new server satisfies the invariant: no entries, and the empty store loads |
| Server.StepInv | server/common/server.go:148-151 | every step keeps the invariant: before the draw every waiting entry is empty, and the store always loads |
| Server.RunInv | server/common/server.go:52-69 | the invariant holds after any sequence of steps |
| Server.StepFrozen | server/common/server.go:142-147 | once the winners are revealed, no step changes the draw state |
| Server.RunFrozen | server/common/server.go:166 | after the draw, every run leaves the draw state as it was |
| Server.RevealedStays | server/common/server.go:183 | the flag is never cleared |
| Server.DrawOnlyAtBarrier | server/common/server.go:166 | only the draw check sets the flag, and only when the waiting count equals the agency count |
| Server.StepWaitingGrows | server/common/server.go:150 | no step unregisters an agency |
| Server.WaitingOnlyGrows | server/common/server.go:150 | the set of registered agencies only grows over a run |
| Server.AtMostOneDraw | server/common/server.go:166-183 | the bets are scanned for winners at most once in any run, and never once the flag is set |
| Server.WinnersDelivered | server/common/server.go:142-147 | right after the draw, an agency that asks receives the documents of its winning bets joined by `;`, or "" when it has none |
| Client.KeptSnoc | client/common/client.go:123-128 | a line with five fields adds its record after the earlier ones; any other line adds nothing |
| Client.RecordOfLine | client/common/client.go:128 | a record is the line prefixed with the client id and `,` |
| Client.FullBatches | client/common/client.go:129-139 | every batch flushed inside the loop holds exactly the batch size |
| Client.BatchCap | client/common/client.go:129-135 | the effective batch size: `BatchMaxAmount`, and 2 when that is below 2, because the first record of a batch only opens the connection; `Client.SendBatchMessages` sends full batches of exactly this size |
| Client.Leftover | client/common/client.go:142-144 | what is left after the loop is shorter than a batch |
| Client.BatchesPartition | client/common/client.go:121-144 | the full batches followed by the leftover are the records, in order |
| Client.BatchesCount | client/common/client.go:129-139 | the records number the full batches times the batch size, plus the leftover |
| Client.BatchesSnoc | client/common/client.go:129-139 | one more record either completes the pending batch, which is flushed, or extends it |
| Client.Messages | client/common/client.go:135 | one message per batch: its records joined by `;` |
| Client.Batches | client/common/client.go:129-144 | the batches sent: the full ones, then the leftover if non-empty and still running; `Client.BatchesCover` states their contents |
| Client.BatchesCover | client/common/client.go:142-144 | while running, the batches carry every record once, in order; each is non-empty and no larger than the batch size, and only the last may be short. After a shutdown signal the final short batch is dropped |
| Client.SendBatchMessages | client/common/client.go:98-147 | the messages sent are the batches of the kept records, each sent as its records joined by `;`. Batch size is `BatchMaxAmount`, and 2 when that is below 2. The `bet` passed with the final batch is the split of the last line read, kept or skipped |
| Client.ExpectedAck | client/common/client.go:174 | the expected reply is the count of `;`-records followed by ` apuestas almacenadas`; `Client.NeverConfirmed` compares it with the server's reply |
| Client.SendBatchResult | client/common/client.go:149-184 | a failed send ends the exchange; after a successful send a `bet` of fewer than three fields panics at `bet[2]` (line 162), and so does a reply announcing a negative length, at `ReadMessage`'s `make`; otherwise a batch is confirmed exactly when the reply is a payload equal to `<k> apuestas almacenadas`, with k the number of `;`-records |
| Client.FinalBet | client/common/client.go:123-143 | the `bet` passed with the final batch: the fields of the last line read, kept or skipped; `Client.FinalBatchPanics` and `Client.FinalBetKept` state its effect |
| Client.FinalBatchPanics | client/common/client.go:121-163 | a blank line after a partial batch keeps the same records and batches, but the final batch is sent with `bet == [""]`, so any reply ends in the panic |
| Client.FinalBetKept | client/common/client.go:123-165 | when the last line was kept, the final batch's `bet` has five fields, so the exchange panics only on a reply that announces a negative length |
| Client.NeverConfirmed | client/common/client.go:174-184 | the server's fixed reply never confirms a batch; with a `bet` of at least three fields it is reported as unconfirmed with that reply |
| Client.RecordFields | client/common/client.go:128 | at the server, a record's `,`-fields are the client id followed by the line's five fields |
| Client.RecordAtServer | server/common/server.go:106-116 | the server keeps a client record exactly when `NewBet` accepts the id and the line's five fields |
| Client.BatchAtServer | server/common/server.go:104 | when no record holds `;`, the server splits a batch message back into exactly its records |

## Left out

- **Sockets, goroutines, the WaitGroup and the mutexes** (server/common/server.go:52-69, 189-199). Each locked section is one atomic `Server.Step`. The handler and the draw check interleave in any order. The lock left held on the `LoadBets` error path (server.go:170-172) is kept only for its effect on the state.
- **The `running` break inside the draw loop** (server/common/server.go:176-178). The draw scans every loaded bet, as it does while the server runs.
- **The connection registry, `GracefulShutdown`, `StopClient` and `os.Exit`.** These are shutdown plumbing.
- **The reply send and its errors in the server handlers.** The handler returns the reply it would send. A send failure changes no state.
- **Configuration, logging and signals.** This covers server/main.go and client/main.go. The client's `running` flag is a parameter of `Client.SendBatchMessages`.
- **server/common/server.py and generate_docker_compose.py.** Neither holds service logic.
- **File and CSV mechanics.** This covers `os.OpenFile`, `encoding/csv` quoting, `ReadAll` and its errors, and `StoreBets` write errors. The store is the sequence of its rows.
- **Client file reading, socket creation and `time.Sleep`.** The bet file is given as its lines.
- **bufio buffering.** Go reads see the peer's deliveries directly.
- **UTF-8 encoding and decoding in the Python codec.** Messages are their bytes.
- **Numbers.ParseInt:** does not model the leniency of Python `int()` (surrounding whitespace, `_` between digits, non-ASCII decimal digits such as Arabic-Indic `٣`) or 64-bit range limits. It accepts an optional sign followed by decimal digits, as `strconv.Atoi` does within range.
- **Dates.ParseDate:** covers only the `2006-01-02` layout. Time zones and monotonic clock readings of `time.Time` are not represented; a date is year, month and day.
- **GoCodec.ReadMessage:** a negative length makes Go's `make` panic. The codec reports this as the outcome `NegativeLength`. On the client, `Client.SendBatchResult` maps it to `Panicked`.
- **PyCodec.ReadMessage:** when the peer closes before `:`, `recv(1)` keeps returning an empty byte string and the loop never ends. The model reports this as the outcome `NeverReturns` rather than looping.
- **Wire.WriteAll:** once the listed write outcomes run out, a write takes everything it is given. A zero-byte write that never makes progress is not modelled beyond the listed outcomes.
- **Server.CanRevealWinners:** a fresh server has no bets.csv, so `LoadBets` fails at `os.Open` (server/common/utils.go:99-101) until the first batch is stored. The model starts from an empty store, which loads. Under `Server.Inv`, the failed-load branch (server/common/server.go:170-172) is therefore never reached from `Server.NewServer`. The contract covers that branch only for stores that do not load.
- **Server.NewServer:** the source's new server creates no bets.csv, so until the first batch is stored, `LoadBets` fails and `canRevealWinners` returns, keeping its lock (server/common/server.go:170-172). The model's new server holds an empty store that loads. `Server.QueriesFromNew` and `Server.BarrierReached` are therefore statements about this model's start. In the source, a draw on winner queries alone never happens, and needs at least one stored batch first.
- **Client.SendBatchMessages:** `sent` lists the messages passed to `SendBatchMessage`, assuming every exchange inside the loop returns. An exchange that panics, on a short `bet` or a negative reply length (`Client.SendBatchResult`), ends the client, and the later batches are never sent. Inside the loop `bet` always has five fields, so only a negative reply length can cut the list short there.

=== FILE: bets.dfy ===
/**
 * The bet value type and its persisted form: NewBet, HasWon, and the six-field
 * rows StoreBets appends and LoadBets reads back. The store is the sequence of
 * rows in the file; CSV quoting and file handling are abstracted away.
 */
module Bets {
  import opened Results
  import opened Seqs
  import opened Numbers
  import opened Dates

  /** The simulated winning number of the lottery. */
  const WinningNumber: int := 7574

  datatype Bet = Bet(
    agency: int,
    firstName: string,
    lastName: string,
    document: string,
    birthdate: Date,
    number: int)

  /** Why NewBet rejected its fields; checked in this order. */
  datatype BetError = BadAgency | BadNumber | BadBirthdate

  /** A bet NewBet can produce: its birthdate is a real date in the layout's range. */
  predicate WellFormed(b: Bet)
  {
    Valid(b.birthdate)
  }

  /** NewBet: agency and number as integers, birthdate as YYYY-MM-DD, the rest verbatim. */
  function NewBet(agency: string, firstName: string, lastName: string,
                  document: string, birthdate: string, number: string): (r: Result<Bet, BetError>)
    ensures r.Ok? <==> ParseInt(agency).Some? && ParseInt(number).Some? && ParseDate(birthdate).Some?
    ensures r.Ok? ==> WellFormed(r.value)
    ensures r.Ok? ==> r.value.firstName == firstName && r.value.lastName == lastName && r.value.document == document
    ensures r.Ok? ==> r.value.agency == ParseInt(agency).value && r.value.number == ParseInt(number).value
    ensures r.Ok? ==> ParseDate(birthdate) == Some(r.value.birthdate)
    ensures r.Ok? ==> FormatDate(r.value.birthdate) == birthdate
    ensures r == Err(BadAgency) <==> ParseInt(agency).None?
    ensures r == Err(BadNumber) <==> ParseInt(agency).Some? && ParseInt(number).None?
  {
    match ParseInt(agency)
    case None => Err(BadAgency)
    case Some(a) =>
      match ParseInt(number)
      case None => Err(BadNumber)
      case Some(n) =>
        match ParseDate(birthdate)
        case None => Err(BadBirthdate)
        case Some(d) =>
          FormatParseDate(birthdate);
          Ok(Bet(a, firstName, lastName, document, d, n))
  }

  /** HasWon: the bet carries the winning number. */
  predicate HasWon(b: Bet)
  {
    b.number == WinningNumber
  }

  /** A bet built from text wins exactly when its number text reads as the winning number, whatever its spelling. */
  lemma HasWonOfFields(agency: string, firstName: string, lastName: string,
                       document: string, birthdate: string, number: string)
    requires NewBet(agency, firstName, lastName, document, birthdate, number).Ok?
    ensures HasWon(NewBet(agency, firstName, lastName, document, birthdate, number).value)
            <==> ParseInt(number) == Some(WinningNumber)
  {
  }

  /** The winning number as Itoa prints it makes a winning bet. */
  lemma WinningText(agency: string, firstName: string, lastName: string, document: string, birthdate: string)
    requires ParseInt(agency).Some? && ParseDate(birthdate).Some?
    ensures var r := NewBet(agency, firstName, lastName, document, birthdate, FormatInt(WinningNumber));
            r.Ok? && HasWon(r.value)
  {
    ParseFormatInt(WinningNumber);
  }

  /** The fields of a sample bet are kept: agency 1, number 7500, born 2000-12-20, names and document verbatim. */
  lemma SampleBet()
    ensures NewBet("1", "first", "last", "10000000", "2000-12-20", "7500")
            == Ok(Bet(1, "first", "last", "10000000", Date(2000, 12, 20), 7500))
  {
    var s := "2000-12-20";
    assert s == ['2', '0', '0', '0', '-', '1', '2', '-', '2', '0'];
    assert s[..4] == "2000" && s[5..7] == "12" && s[8..] == "20";
    assert DigitsValue("2000") == 2000 by {
      assert "2000"[..3] == "200" && "200"[..2] == "20" && "20"[..1] == "2" && "2"[..0] == "";
    }
    assert DigitsValue("12") == 12 by {
      assert "12"[..1] == "1" && "1"[..0] == "";
    }
    assert DigitsValue("20") == 20 by {
      assert "20"[..1] == "2" && "2"[..0] == "";
    }
    assert Shaped(s);
    assert ParseDate(s) == Some(Date(2000, 12, 20));
    assert ParseInt("1") == Some(1) by {
      assert "1"[..0] == "";
    }
    assert ParseInt("7500") == Some(7500) by {
      assert "7500"[..3] == "750" && "750"[..2] == "75" && "75"[..1] == "7" && "7"[..0] == "";
    }
  }

  type Row = seq<string>
  type Store = seq<Row>

  /** The row StoreBets writes for one bet: agency, names, document, birthdate, number. */
  function BetRow(b: Bet): (row: Row)
    ensures |row| == 6
  {
    [FormatInt(b.agency), b.firstName, b.lastName, b.document, FormatDate(b.birthdate), FormatInt(b.number)]
  }

  /** Reading a written row back through NewBet gives the same bet. */
  lemma NewBetOfRow(b: Bet)
    requires WellFormed(b)
    ensures RowBet(BetRow(b)) == Ok(b)
  {
    ParseFormatInt(b.agency);
    ParseFormatInt(b.number);
    ParseFormatDate(b.birthdate);
  }

  function Rows(bets: seq<Bet>): (rows: seq<Row>)
    ensures |rows| == |bets|
    ensures forall i :: 0 <= i < |bets| ==> rows[i] == BetRow(bets[i])
  {
    if |bets| == 0 then [] else [BetRow(bets[0])] + Rows(bets[1..])
  }

  /** StoreBets: append one row per bet, in list order, after the rows already stored. */
  function StoreBets(store: Store, bets: seq<Bet>): (r: Store)
    ensures |r| == |store| + |bets|
    ensures r[..|store|] == store
    ensures forall i :: 0 <= i < |bets| ==> r[|store| + i] == BetRow(bets[i])
  {
    store + Rows(bets)
  }

  /** NewBet applied to the first six fields of a row. */
  function RowBet(row: Row): Result<Bet, BetError>
    requires |row| >= 6
  {
    NewBet(row[0], row[1], row[2], row[3], row[4], row[5])
  }

  /** A row LoadBets does not skip whose fields NewBet rejects. */
  predicate BadRow(row: Row)
  {
    |row| >= 6 && RowBet(row).Err?
  }

  /**
   * LoadBets: skip rows with fewer than six fields, parse the others, and
   * fail with the first rejected row's error.
   */
  function LoadBets(store: Store): (r: Result<seq<Bet>, BetError>)
    ensures r.Ok? ==> |r.value| <= |store|
    ensures r.Ok? ==> forall i :: 0 <= i < |r.value| ==> WellFormed(r.value[i])
    decreases |store|
  {
    if |store| == 0 then Ok([])
    else
      var tail := LoadBets(store[1..]);
      if |store[0]| < 6 then tail
      else
        match RowBet(store[0])
        case Err(e) => Err(e)
        case Ok(b) =>
          match tail
          case Err(e) => Err(e)
          case Ok(bs) => Ok([b] + bs)
  }

  /** The whole load fails exactly when some unskipped row is rejected. */
  lemma {:induction false} LoadBetsFails(store: Store)
    ensures LoadBets(store).Err? <==> exists i :: 0 <= i < |store| && BadRow(store[i])
    decreases |store|
  {
    if |store| > 0 {
      LoadBetsFails(store[1..]);
      if exists i :: 0 <= i < |store[1..]| && BadRow(store[1..][i]) {
        var i :| 0 <= i < |store[1..]| && BadRow(store[1..][i]);
        assert BadRow(store[i + 1]);
      }
      if exists i :: 0 <= i < |store| && BadRow(store[i]) {
        var i :| 0 <= i < |store| && BadRow(store[i]);
        if i > 0 {
          assert BadRow(store[1..][i - 1]);
        }
      }
    }
  }

  /** Loading a store made of two parts: the first part's bets, then the second's. */
  lemma {:induction false} LoadBetsAppend(a: Store, b: Store)
    requires LoadBets(a).Ok? && LoadBets(b).Ok?
    ensures LoadBets(a + b) == Ok(LoadBets(a).value + LoadBets(b).value)
    decreases |a|
  {
    if |a| == 0 {
      assert a + b == b;
      assert LoadBets(a).value == [];
      assert LoadBets(a).value + LoadBets(b).value == LoadBets(b).value;
    } else {
      var rest := a[1..];
      var head := if |a[0]| < 6 then [] else [RowBet(a[0]).value];
      assert !BadRow(a[0]) && LoadBets(rest).Ok? && LoadBets(a).value == head + LoadBets(rest).value by {
        LoadBetsCons(a);
      }
      var lr, lb := LoadBets(rest).value, LoadBets(b).value;
      LoadBetsAppend(rest, b);
      assert LoadBets(a + b) == Ok(head + (lr + lb)) by {
        AppendTail(a, b);
        LoadBetsCons(a + b);
      }
      AppendAssoc(head, lr, lb);
    }
  }

  /** Loading a non-empty store succeeds exactly when its first row is not rejected and the rest loads; then it yields that row's bet, unless skipped, before the rest's bets. */
  lemma LoadBetsCons(s: Store)
    requires |s| > 0
    ensures LoadBets(s).Ok? <==> !BadRow(s[0]) && LoadBets(s[1..]).Ok?
    ensures LoadBets(s).Ok? ==>
              LoadBets(s).value == (if |s[0]| < 6 then [] else [RowBet(s[0]).value]) + LoadBets(s[1..]).value
  {
    if LoadBets(s).Ok? {
      var tail := LoadBets(s[1..]).value;
      if |s[0]| < 6 {
        assert LoadBets(s) == Ok(tail);
        assert [] + tail == tail;
      } else {
        assert LoadBets(s) == Ok([RowBet(s[0]).value] + tail);
      }
    }
  }

  /** The rows of well-formed bets load back as exactly those bets. */
  lemma {:induction false} LoadRows(bets: seq<Bet>)
    requires forall i :: 0 <= i < |bets| ==> WellFormed(bets[i])
    ensures LoadBets(Rows(bets)) == Ok(bets)
    decreases |bets|
  {
    var rows := Rows(bets);
    if |bets| > 0 {
      NewBetOfRow(bets[0]);
      assert |rows[0]| == 6 && RowBet(rows[0]) == Ok(bets[0]);
      assert rows[1..] == Rows(bets[1..]);
      LoadRows(bets[1..]);
      assert LoadBets(rows) == Ok([bets[0]] + bets[1..]);
      assert bets == [bets[0]] + bets[1..];
    } else {
      assert rows == [];
    }
  }

  /** Store/load round trip: after appending well-formed bets, loading yields the old bets followed by the new ones. */
  lemma {:induction false} StoreLoadRoundTrip(store: Store, bets: seq<Bet>)
    requires LoadBets(store).Ok?
    requires forall i :: 0 <= i < |bets| ==> WellFormed(bets[i])
    ensures LoadBets(StoreBets(store, bets)) == Ok(LoadBets(store).value + bets)
  {
    LoadRows(bets);
    LoadBetsAppend(store, Rows(bets));
  }

  /** From an empty store, loading returns exactly the stored bets, in order. */
  lemma {:induction false} StoreLoadEmpty(bets: seq<Bet>)
    requires forall i :: 0 <= i < |bets| ==> WellFormed(bets[i])
    ensures LoadBets(StoreBets([], bets)) == Ok(bets)
  {
    StoreLoadRoundTrip([], bets);
    assert LoadBets([]).value + bets == bets;
  }
}

=== FILE: client.dfy ===
/**
 * The agency client's batching: which lines of its bet file become records,
 * how the records are grouped into batch messages, and how it judges the
 * server's reply. The file is given as its lines; sockets, the sleep between
 * batches and the signal handler are abstracted (`running` is the flag's
 * value when the file is exhausted).
 */
module Client {
  import opened Results
  import opened Seqs
  import opened Numbers
  import opened Wire
  import opened GoCodec
  import opened Bets
  import opened Server

  /** The record for one bet line: the agency id, then the five bet fields, separated by ','. */
  function Record(id: string, bet: seq<string>): string
    requires |bet| == 5
  {
    Join([id] + bet, ',')
  }

  /** A line with exactly five ','-fields yields a record; any other line is skipped. */
  function LineRecord(id: string, line: string): Option<string>
  {
    var bet := Split(line, ',');
    if |bet| != 5 then None else Some(Record(id, bet))
  }

  function LineParser(id: string): string -> Option<string>
  {
    line => LineRecord(id, line)
  }

  /** The records of a file, in line order. */
  function KeptRecords(id: string, lines: seq<string>): seq<string>
  {
    FilterMap(LineParser(id), lines)
  }

  /** Reading one more line adds its record, if it has one, after the records so far. */
  lemma KeptSnoc(id: string, lines: seq<string>, i: nat)
    requires i < |lines|
    ensures KeptRecords(id, lines[..i + 1]) ==
              KeptRecords(id, lines[..i])
              + (if |Split(lines[i], ',')| == 5 then [Record(id, Split(lines[i], ','))] else [])
  {
    assert lines[..i + 1] == lines[..i] + [lines[i]];
    FilterMapAppend(LineParser(id), lines[..i], [lines[i]]);
    assert [lines[i]][1..] == [];
  }

  /** A record is the line itself prefixed with the agency id and a ','. */
  lemma RecordOfLine(id: string, line: string)
    requires |Split(line, ',')| == 5
    ensures Record(id, Split(line, ',')) == id + "," + line
  {
    var bet := Split(line, ',');
    AppendTail([id], bet);
    assert Join([id] + bet, ',') == id + [','] + Join(bet, ',');
  }

  /** The number of records per batch the counter in SendBatchMessages produces for a configured maximum. */
  function BatchCap(batchMaxAmount: int): nat
  {
    if batchMaxAmount < 2 then 2 else batchMaxAmount
  }

  /** The complete batches, each of exactly `cap` elements, taken from the front in order. */
  function FullBatches<T>(rs: seq<T>, cap: nat): (bs: seq<seq<T>>)
    requires cap > 0
    ensures forall i :: 0 <= i < |bs| ==> |bs[i]| == cap
    decreases |rs|
  {
    if |rs| < cap then [] else [rs[..cap]] + FullBatches(rs[cap..], cap)
  }

  /** What remains after the complete batches: a proper suffix shorter than a batch. */
  function Leftover<T>(rs: seq<T>, cap: nat): (r: seq<T>)
    requires cap > 0
    ensures |r| < cap && |r| <= |rs|
    decreases |rs|
  {
    if |rs| < cap then rs else Leftover(rs[cap..], cap)
  }

  /** The complete batches followed by the leftover are the records. */
  lemma {:induction false} BatchesPartition<T>(rs: seq<T>, cap: nat)
    requires cap > 0
    ensures Concat(FullBatches(rs, cap)) + Leftover(rs, cap) == rs
    decreases |rs|
  {
    if |rs| < cap {
      assert FullBatches(rs, cap) == [] && Leftover(rs, cap) == rs;
      assert Concat<T>([]) + rs == rs;
    } else {
      var head, rest := rs[..cap], rs[cap..];
      var tail, left := FullBatches(rest, cap), Leftover(rest, cap);
      assert Concat(tail) + left == rest by {
        BatchesPartition(rest, cap);
      }
      assert Concat([head] + tail) == head + Concat(tail) by {
        AppendTail([head], tail);
      }
      AppendAssoc(head, Concat(tail), left);
      assert rs == head + rest;
    }
  }

  /** Division with remainder: |rs| is the number of complete batches times the batch size, plus the leftover. */
  lemma {:induction false} BatchesCount<T>(rs: seq<T>, cap: nat)
    requires cap > 0
    ensures |rs| == |FullBatches(rs, cap)| * cap + |Leftover(rs, cap)|
    decreases |rs|
  {
    if |rs| >= cap {
      var k := |FullBatches(rs[cap..], cap)|;
      BatchesCount(rs[cap..], cap);
      assert |FullBatches(rs, cap)| == k + 1;
      assert (k + 1) * cap == k * cap + cap;
    }
  }

  /** Adding one record either completes the pending batch or extends it. */
  lemma {:induction false} BatchesSnoc<T>(rs: seq<T>, r: T, cap: nat)
    requires cap > 0
    ensures |Leftover(rs, cap)| + 1 == cap ==>
              && FullBatches(rs + [r], cap) == FullBatches(rs, cap) + [Leftover(rs, cap) + [r]]
              && Leftover(rs + [r], cap) == []
    ensures |Leftover(rs, cap)| + 1 < cap ==>
              && FullBatches(rs + [r], cap) == FullBatches(rs, cap)
              && Leftover(rs + [r], cap) == Leftover(rs, cap) + [r]
    decreases |rs|
  {
    var rs' := rs + [r];
    if |rs| < cap {
      if |rs| + 1 == cap {
        assert rs'[..cap] == rs' && rs'[cap..] == [];
        assert FullBatches(rs', cap) == [rs'] + FullBatches([], cap);
      }
    } else {
      assert rs'[..cap] == rs[..cap];
      assert rs'[cap..] == rs[cap..] + [r];
      BatchesSnoc(rs[cap..], r, cap);
      var head := [rs[..cap]];
      AppendAssoc(head, FullBatches(rs[cap..], cap), [Leftover(rs, cap) + [r]]);
    }
  }

  /** One batch message per batch: its records joined with ';'. */
  function Messages(bs: seq<seq<string>>): (ms: seq<string>)
    ensures |ms| == |bs|
    ensures forall i :: 0 <= i < |bs| ==> ms[i] == Join(bs[i], ';')
  {
    if |bs| == 0 then [] else Messages(bs[..|bs| - 1]) + [Join(bs[|bs| - 1], ';')]
  }

  lemma MessagesSnoc(bs: seq<seq<string>>, b: seq<string>)
    ensures Messages(bs + [b]) == Messages(bs) + [Join(b, ';')]
  {
    SnocPrefix(bs, b);
  }

  /** The batches sent for a record list: every complete one, then the leftover if any and the client still runs. */
  function Batches<T>(rs: seq<T>, cap: nat, running: bool): seq<seq<T>>
    requires cap > 0
  {
    FullBatches(rs, cap) + (if running && |Leftover(rs, cap)| > 0 then [Leftover(rs, cap)] else [])
  }

  /**
   * While running, the batches carry every record exactly once and in order,
   * none is empty, and only the last may be short; after a shutdown signal
   * the final short batch is dropped.
   */
  lemma BatchesCover<T>(rs: seq<T>, cap: nat, running: bool)
    requires cap > 0
    ensures running ==> Concat(Batches(rs, cap, true)) == rs
    ensures !running ==> Concat(Batches(rs, cap, false)) == rs[..|rs| - |Leftover(rs, cap)|]
    ensures forall i :: 0 <= i < |Batches(rs, cap, running)| ==> 0 < |Batches(rs, cap, running)[i]| <= cap
    ensures forall i :: 0 <= i < |Batches(rs, cap, running)| - 1 ==> |Batches(rs, cap, running)[i]| == cap
  {
    var full, left := FullBatches(rs, cap), Leftover(rs, cap);
    assert Concat(full) + left == rs by {
      BatchesPartition(rs, cap);
    }
    if running && |left| > 0 {
      assert Concat(full + [left]) == rs by {
        ConcatAppend(full, [left]);
        assert Concat([left]) == left + Concat<T>([]);
      }
    } else {
      assert Batches(rs, cap, running) == full;
      assert Concat(full) == rs[..|rs| - |left|];
    }
  }

  /**
   * SendBatchMessages: scan the lines, skip those without five fields,
   * append each record and ';' to the pending message, and send the message
   * without its final ';' when the counter reaches the batch size; after the
   * last line, send the pending message if it is not empty and the client is
   * still running. `sent` lists the messages in sending order. Each batch
   * sent inside the loop goes out with the fields of the line that closed it
   * as `bet`; the final one goes out with `lastBet`: `bet` is reassigned for
   * every line read, so it holds the fields of the last line, kept or not.
   */
  method SendBatchMessages(id: string, lines: seq<string>, batchMaxAmount: int, running: bool)
    returns (sent: seq<string>, lastBet: seq<string>)
    ensures sent == Messages(Batches(KeptRecords(id, lines), BatchCap(batchMaxAmount), running))
    ensures lastBet == FinalBet(lines)
  {
    var cap := BatchCap(batchMaxAmount);
    sent := [];
    var msg := "";
    var batchSize := 0;
    ghost var pending: seq<string> := [];
    for i := 0 to |lines|
      invariant pending == Leftover(KeptRecords(id, lines[..i]), cap)
      invariant sent == Messages(FullBatches(KeptRecords(id, lines[..i]), cap))
      invariant msg == Terminated(pending, ';')
      invariant batchSize == |pending|
    {
      ghost var before := KeptRecords(id, lines[..i]);
      ghost var after := KeptRecords(id, lines[..i + 1]);
      KeptSnoc(id, lines, i);
      var bet := Split(lines[i], ',');
      if |bet| == 5 {
        var record := Record(id, bet);
        assert after == before + [record];
        BatchesSnoc(before, record, cap);
        assert msg + record + ";" == Terminated(pending + [record], ';') by {
          TerminatedSnoc(pending, record, ';');
        }
        msg := msg + record + ";";
        // The first record of a batch also opens the connection; otherwise
        // both arms only count the record.
        if batchSize == 0 || batchSize < batchMaxAmount - 1 {
          assert |pending| + 1 < cap;
          assert Leftover(after, cap) == pending + [record];
          assert FullBatches(after, cap) == FullBatches(before, cap);
          pending := pending + [record];
          batchSize := batchSize + 1;
        } else {
          assert |pending| + 1 == cap;
          assert Leftover(after, cap) == [];
          assert FullBatches(after, cap) == FullBatches(before, cap) + [pending + [record]];
          MessagesSnoc(FullBatches(before, cap), pending + [record]);
          assert TrimLast(msg) == Join(pending + [record], ';') by {
            TrimTerminated(pending + [record], ';');
          }
          sent := sent + [TrimLast(msg)];
          batchSize := 0;
          msg := "";
          pending := [];
        }
      } else {
        assert after == before;
      }
    }
    assert lines[..|lines|] == lines;
    lastBet := if |lines| == 0 then [] else Split(lines[|lines| - 1], ',');
    TerminatedEmpty(pending, ';');
    if |msg| > 0 && running {
      TrimTerminated(pending, ';');
      MessagesSnoc(FullBatches(KeptRecords(id, lines), cap), pending);
      sent := sent + [TrimLast(msg)];
    }
  }

  /** The reply the client expects for a batch message: the number of its ';'-records, then " apuestas almacenadas". */
  function ExpectedAck(msg: string): string
  {
    FormatNat(|Split(msg, ';')|) + " apuestas almacenadas"
  }

  /** The `bet` variable once the scan is over: the fields of the last line read, whether it was kept or skipped. */
  function FinalBet(lines: seq<string>): seq<string>
  {
    if |lines| == 0 then [] else Split(lines[|lines| - 1], ',')
  }

  /**
   * How one exchange of SendBatchMessage ends. Panicked: after a successful
   * send either the log call indexes `bet[2]` of a shorter `bet`, or the reply
   * announces a negative length and ReadMessage's `make` panics; either way
   * the client stops before comparing a reply or closing the connection.
   */
  datatype BatchResult = SendFailed | Panicked | ReadFailed | Unconfirmed(reply: string) | Confirmed

  /**
   * SendBatchMessage's verdict on one exchange, sent with argument `bet`: a
   * failed send, the panic on a `bet` of fewer than three fields or on a
   * negative reply length, another failed read, or the reply compared with
   * ExpectedAck.
   */
  function SendBatchResult(bet: seq<string>, msg: string, outcome: SendOutcome): (r: BatchResult)
    ensures r == SendFailed <==> outcome.WriteError?
    ensures r == Panicked <==> outcome.Reply? && (|bet| < 3 || outcome.reply.NegativeLength?)
    ensures r == ReadFailed <==> outcome.Reply? && |bet| >= 3 && !outcome.reply.Payload? && !outcome.reply.NegativeLength?
    ensures r == Confirmed <==>
              outcome.Reply? && |bet| >= 3 && outcome.reply.Payload? && Text(outcome.reply.payload) == ExpectedAck(msg)
    ensures r.Unconfirmed? ==> r.reply != ExpectedAck(msg)
  {
    match outcome
    case WriteError => SendFailed
    case Reply(d) =>
      if |bet| < 3 || d.NegativeLength? then Panicked
      else if !d.Payload? then ReadFailed
      else if Text(d.payload) == ExpectedAck(msg) then Confirmed
      else Unconfirmed(Text(d.payload))
  }

  /**
   * A blank line after a partial batch: the line is skipped, so the batches
   * are those of the file without it and the final short batch is still sent,
   * but with the blank line's single field as `bet`, so once that send
   * succeeds the client panics instead of reading the acknowledgement.
   */
  lemma FinalBatchPanics(id: string, lines: seq<string>, batchMaxAmount: int, msg: string, reply: Decoded)
    requires |Leftover(KeptRecords(id, lines), BatchCap(batchMaxAmount))| > 0
    ensures var more := lines + [""];
            var cap := BatchCap(batchMaxAmount);
            && KeptRecords(id, more) == KeptRecords(id, lines)
            && |Leftover(KeptRecords(id, more), cap)| > 0
            && FinalBet(more) == [""]
            && SendBatchResult(FinalBet(more), msg, Reply(reply)) == Panicked
  {
    var more := lines + [""];
    KeptSnoc(id, more, |lines|);
    assert more[..|lines|] == lines && more[..|lines| + 1] == more;
    assert Split("", ',') == [""];
  }

  /**
   * A final batch whose last line was kept carries that line's five fields,
   * so it panics only on a reply that announces a negative length.
   */
  lemma FinalBetKept(lines: seq<string>, msg: string, outcome: SendOutcome)
    requires |lines| > 0 && |Split(lines[|lines| - 1], ',')| == 5
    ensures SendBatchResult(FinalBet(lines), msg, outcome) == Panicked <==> outcome.Reply? && outcome.reply.NegativeLength?
  {
  }

  /**
   * The server's fixed reply never matches what the client expects, so no
   * batch sent to this server is ever confirmed: the expected reply starts
   * with a digit, the server's with 'A'.
   */
  lemma NeverConfirmed(bet: seq<string>, msg: string, payload: seq<byte>)
    requires Text(payload) == StoredReply
    ensures SendBatchResult(bet, msg, Reply(Payload(payload))) != Confirmed
    ensures |bet| >= 3 ==> SendBatchResult(bet, msg, Reply(Payload(payload))) == Unconfirmed(StoredReply)
  {
    var count := FormatNat(|Split(msg, ';')|);
    assert ExpectedAck(msg)[0] == count[0];
    assert IsDigit(count[0]);
    assert StoredReply[0] == 'A';
  }

  /** At the server, a record's ','-fields are the agency id followed by the line's five fields. */
  lemma {:induction false} RecordFields(id: string, line: string)
    requires ',' !in id && |Split(line, ',')| == 5
    ensures Split(Record(id, Split(line, ',')), ',') == [id] + Split(line, ',')
  {
    var parts := [id] + Split(line, ',');
    assert forall i :: 0 <= i < |parts| ==> ',' !in parts[i] by {
      forall i | 0 <= i < |parts| ensures ',' !in parts[i] {
        if i > 0 {
          assert parts[i] == Split(line, ',')[i - 1];
        }
      }
    }
    SplitJoin(parts, ',');
  }

  /**
   * End to end, one record: the server reads the agency from the client's id
   * and the remaining five fields from the line, in order, and keeps the bet
   * exactly when NewBet accepts those fields.
   */
  lemma {:induction false} RecordAtServer(id: string, line: string)
    requires ',' !in id && |Split(line, ',')| == 5
    ensures var bet := Split(line, ',');
            ParseRecord(Record(id, bet)) ==
              match NewBet(id, bet[0], bet[1], bet[2], bet[3], bet[4])
              case Ok(b) => Some(b)
              case Err(_) => None
  {
    RecordFields(id, line);
  }

  /** End to end, one batch: when no record holds a ';', the server parses the batch message back into exactly its records. */
  lemma {:induction false} BatchAtServer(batch: seq<string>)
    requires |batch| >= 1
    requires forall i :: 0 <= i < |batch| ==> ';' !in batch[i]
    ensures ParseBatch(Join(batch, ';')) == ParseRecords(batch)
  {
    SplitJoin(batch, ';');
  }
}

=== FILE: dates.dfy ===
/**
 * Calendar dates in the "2006-01-02" layout of Go's time package: a
 * four-digit year, a two-digit month and a two-digit day separated by '-',
 * rejected when the month or the day is out of range.
 */
module Dates {
  import opened Results
  import opened Numbers

  datatype Date = Date(year: int, month: nat, day: nat)

  predicate IsLeap(year: int)
  {
    year % 4 == 0 && (year % 100 != 0 || year % 400 == 0)
  }

  function DaysIn(month: nat, year: int): nat
  {
    if month == 2 then (if IsLeap(year) then 29 else 28)
    else if month == 4 || month == 6 || month == 9 || month == 11 then 30
    else 31
  }

  /** A date the layout can produce: four-digit year, real month, real day of that month. */
  predicate Valid(d: Date)
  {
    0 <= d.year <= 9999 && 1 <= d.month <= 12 && 1 <= d.day <= DaysIn(d.month, d.year)
  }

  /** Year field of the layout: at least four digits, with a sign when negative. */
  function FormatYear(year: int): string
  {
    if year < 0 then "-" + Pad(-year, 4) else Pad(year, 4)
  }

  /** time.Time.Format("2006-01-02"). */
  function FormatDate(d: Date): string
  {
    FormatYear(d.year) + "-" + Pad(d.month, 2) + "-" + Pad(d.day, 2)
  }

  /** The character shape the layout demands: DDDD-DD-DD and nothing more. */
  predicate Shaped(s: string)
  {
    |s| == 10 && AllDigits(s[..4]) && s[4] == '-' && AllDigits(s[5..7]) && s[7] == '-' && AllDigits(s[8..])
  }

  /** time.Parse("2006-01-02", s). */
  function ParseDate(s: string): (r: Option<Date>)
    ensures r.Some? ==> Valid(r.value)
  {
    if Shaped(s) then
      var d := Date(DigitsValue(s[..4]), DigitsValue(s[5..7]), DigitsValue(s[8..]));
      if Valid(d) then Some(d) else None
    else None
  }

  /** Formatting a valid date yields text that parses back to it. */
  lemma ParseFormatDate(d: Date)
    requires Valid(d)
    ensures ParseDate(FormatDate(d)) == Some(d)
  {
    PadWidth(d.year, 4);
    PadWidth(d.month, 2);
    PadWidth(d.day, 2);
    var y, m, dd := Pad(d.year, 4), Pad(d.month, 2), Pad(d.day, 2);
    var s := FormatDate(d);
    assert s == y + "-" + m + "-" + dd;
    assert s[..4] == y;
    assert s[5..7] == m;
    assert s[8..] == dd;
  }

  /** Text that parses is exactly the formatting of the date it parses to. */
  lemma FormatParseDate(s: string)
    requires ParseDate(s).Some?
    ensures FormatDate(ParseDate(s).value) == s
  {
    var d := ParseDate(s).value;
    PadDigitsValue(s[..4]);
    PadDigitsValue(s[5..7]);
    PadDigitsValue(s[8..]);
    assert s == s[..4] + "-" + s[5..7] + "-" + s[8..];
  }

  /** The layout is a bijection between valid dates and the texts it accepts. */
  lemma ParseDateIff(s: string, d: Date)
    ensures ParseDate(s) == Some(d) <==> Valid(d) && FormatDate(d) == s
  {
    if ParseDate(s) == Some(d) {
      FormatParseDate(s);
    }
    if Valid(d) && FormatDate(d) == s {
      ParseFormatDate(d);
    }
  }
}

=== FILE: go_codec.dfy ===
/**
 * The Go client's codec: ReadMessage reads up to the first ':' (bufio's
 * ReadString), converts the text before it with Atoi, then loops over short
 * reads until exactly that many bytes have arrived. SendMessage writes the
 * message as given, with no length prefix, and then reads the reply.
 * bufio's buffering is abstracted: reads see the peer's deliveries.
 */
module GoCodec {
  import opened Results
  import opened Seqs
  import opened Wire
  import Numbers

  /**
   * The scan inside ReadString: consume whole deliveries while none holds the
   * delimiter, stopping at the first that does or when the peer has closed.
   */
  method ScanToDelimiter(conn: seq<Chunk>) returns (acc: seq<byte>, pending: seq<Chunk>)
    ensures acc + Flat(pending) == Flat(conn)
    ensures Colon !in acc
    ensures pending != [] ==> Colon in pending[0]
  {
    acc := [];
    pending := conn;
    while pending != [] && Colon !in pending[0]
      invariant acc + Flat(pending) == Flat(conn)
      invariant Colon !in acc
      decreases |pending|
    {
      assert Flat(pending) == pending[0] + Flat(pending[1..]);
      acc := acc + pending[0];
      pending := pending[1..];
    }
  }

  /**
   * bufio.Reader.ReadString(':'): gather deliveries until one holds the
   * delimiter; return the text through the delimiter and what stays buffered
   * after it, or report that the stream ended first.
   */
  method ReadString(conn: seq<Chunk>) returns (found: bool, line: seq<byte>, buffered: seq<Chunk>)
    ensures !found <==> Colon !in Flat(conn)
    ensures found ==> |line| > 0 && line[|line| - 1] == Colon && Colon !in line[..|line| - 1]
    ensures found ==> |line| <= |Flat(conn)| && line == Flat(conn)[..|line|] && Flat(buffered) == Flat(conn)[|line|..]
  {
    var acc, pending := ScanToDelimiter(conn);
    if pending == [] {
      assert acc == Flat(conn);
      return false, acc, [];
    }
    var i := FirstIndex(pending[0], Colon).value;
    DelimiterCut(acc, pending, Flat(conn), i);
    line := acc + pending[0][..i + 1];
    buffered := Unread(pending[0], i + 1, pending[1..]);
    found := true;
  }

  /**
   * The read loop of ReadMessage: read into the rest of a `total`-byte buffer
   * until it is full, failing if the stream closes first. Each read asks only
   * for the bytes still missing.
   */
  method ReadFull(buffered: seq<Chunk>, total: nat) returns (complete: bool, bs: seq<byte>)
    ensures complete <==> total <= |Flat(buffered)|
    ensures complete ==> bs == Flat(buffered)[..total]
  {
    bs := [];
    var bytesRead := 0;
    var pending := buffered;
    while bytesRead < total
      invariant 0 <= bytesRead <= total
      invariant bytesRead == |bs|
      invariant bs + Flat(pending) == Flat(buffered)
      decreases |Flat(pending)|
    {
      var got := Recv(pending, total - bytesRead);
      if got.data == [] {
        return false, bs;
      }
      bs := bs + got.data;
      bytesRead := bytesRead + |got.data|;
      pending := got.rest;
    }
    assert bs == Flat(buffered)[..total];
    return true, bs;
  }

  /**
   * ReadMessage. The outcome depends only on the delivered bytes, never on how
   * they were split into deliveries. NoDelimiter is ReadString's io.EOF,
   * BadLength the Atoi error, NegativeLength the panic of make, Truncated the
   * error of a Read that finds the stream closed.
   */
  method ReadMessage(conn: seq<Chunk>) returns (r: Decoded)
    ensures r == Decode(Flat(conn))
  {
    var found, line, buffered := ReadString(conn);
    if !found {
      return NoDelimiter;
    }
    var k := |line| - 1;
    var lengthText := line[..k];  // drop the trailing colon
    assert lengthText == Flat(conn)[..k];
    forall j | 0 <= j < k ensures Flat(conn)[j] != Colon {
      assert lengthText[j] in lengthText;
    }
    FirstIndexAt(Flat(conn), Colon, k);
    var totalLength := Numbers.ParseInt(Text(lengthText));
    if totalLength.None? {
      return BadLength;
    }
    var total := totalLength.value;
    if total < 0 {
      return NegativeLength;
    }
    var complete, bs := ReadFull(buffered, total);
    if !complete {
      return Truncated;
    }
    return Payload(bs);
  }

  /** What SendMessage returns: a write error, or the outcome of reading the reply. */
  datatype SendOutcome = WriteError | Reply(reply: Decoded)

  /**
   * SendMessage: write `msg` unchanged through the short-write loop, stop at
   * the first write error, and otherwise return ReadMessage on the replies.
   */
  method SendMessage(msg: seq<byte>, writes: seq<Write>, conn: seq<Chunk>) returns (wire: seq<byte>, r: SendOutcome)
    ensures |wire| <= |msg| && wire == msg[..|wire|]
    ensures r.Reply? ==> wire == msg && r.reply == Decode(Flat(conn))
    ensures r.WriteError? ==> exists i :: 0 <= i < |writes| && writes[i].Failed?
    ensures r.WriteError? ==> |wire| < |msg| || |msg| == 0
    ensures (forall i :: 0 <= i < |writes| ==> writes[i].Accepted?) ==> r.Reply?
  {
    var ok;
    wire, ok := WriteAll(msg, writes);
    if !ok {
      return wire, WriteError;
    }
    var reply := ReadMessage(conn);
    return wire, Reply(reply);
  }

  /** A framed payload is received intact however the peer splits it into deliveries. */
  method ReadFrame(p: seq<byte>, rest: seq<byte>, conn: seq<Chunk>) returns (r: Decoded)
    requires Flat(conn) == Frame(p) + rest
    ensures r == Payload(p)
  {
    r := ReadMessage(conn);
    DecodeFrame(p, rest);
  }
}

=== FILE: numbers.dfy ===
/**
 * Decimal integers as text: strconv.Atoi / strconv.Itoa, and the
 * zero-padded digit fields of Go's time formatting. Only an optional sign
 * followed by decimal digits is accepted; 64-bit range limits are not modelled.
 */
module Numbers {
  import opened Results

  predicate IsDigit(c: char) { '0' <= c <= '9' }

  predicate AllDigits(s: string) { forall i :: 0 <= i < |s| ==> IsDigit(s[i]) }

  function DigitValue(c: char): nat
    requires IsDigit(c)
  {
    c as int - '0' as int
  }

  function DigitChar(d: nat): (c: char)
    requires d < 10
    ensures IsDigit(c) && DigitValue(c) == d
  {
    ('0' as int + d) as char
  }

  /** The value of a digit string, most significant digit first. */
  function DigitsValue(s: string): nat
    requires AllDigits(s)
    decreases |s|
  {
    if |s| == 0 then 0 else 10 * DigitsValue(s[..|s| - 1]) + DigitValue(s[|s| - 1])
  }

  /** A digit string without superfluous leading zeros. */
  predicate Canonical(s: string)
  {
    |s| > 0 && AllDigits(s) && (s[0] != '0' || |s| == 1)
  }

  /** strconv.Itoa for a non-negative value. */
  function FormatNat(n: nat): (s: string)
    ensures Canonical(s)
    ensures DigitsValue(s) == n
    decreases n
  {
    if n < 10 then [DigitChar(n)]
    else
      var s := FormatNat(n / 10) + [DigitChar(n % 10)];
      assert s[..|s| - 1] == FormatNat(n / 10);
      s
  }

  /** strconv.Itoa. */
  function FormatInt(n: int): (s: string)
    ensures |s| > 0
    ensures n >= 0 ==> s == FormatNat(n)
    ensures n < 0 ==> s[0] == '-' && s[1..] == FormatNat(-n)
    ensures (s[0] == '-') <==> n < 0
    ensures n >= 0 ==> Canonical(s) && DigitsValue(s) == n
    ensures n < 0 ==> Canonical(s[1..]) && DigitsValue(s[1..]) == -n
  {
    if n < 0 then "-" + FormatNat(-n) else FormatNat(n)
  }

  /** The texts strconv.Atoi accepts here: an optional sign, then at least one digit. */
  predicate IsIntText(s: string)
  {
    || (|s| > 0 && AllDigits(s))
    || (|s| > 1 && (s[0] == '+' || s[0] == '-') && AllDigits(s[1..]))
  }

  /** strconv.Atoi: the value of a signed decimal text, or None when it is not one. */
  function ParseInt(s: string): (r: Option<int>)
    ensures r.Some? <==> IsIntText(s)
    ensures r.Some? && |s| > 0 && s[0] != '-' ==> r.value >= 0
    ensures r.Some? ==> r.value == (if s[0] == '-' then -(DigitsValue(s[1..]) as int)
                                    else if s[0] == '+' then DigitsValue(s[1..])
                                    else DigitsValue(s))
  {
    if |s| > 1 && (s[0] == '+' || s[0] == '-') && AllDigits(s[1..]) then
      var magnitude: int := DigitsValue(s[1..]);
      Some(if s[0] == '-' then -magnitude else magnitude)
    else if |s| > 0 && AllDigits(s) then Some(DigitsValue(s))
    else None
  }

  /** Parsing what Itoa printed gives the number back. */
  lemma ParseFormatInt(n: int)
    ensures ParseInt(FormatInt(n)) == Some(n)
  {
    var s := FormatInt(n);
    if n < 0 {
      assert s == "-" + FormatNat(-n);
      assert !AllDigits(s) by { assert !IsDigit(s[0]); }
    }
  }

  /** A digit string with a non-zero first digit has a non-zero value. */
  lemma {:induction false} LeadingDigitPositive(s: string)
    requires |s| > 0 && AllDigits(s) && s[0] != '0'
    ensures DigitsValue(s) > 0
    decreases |s|
  {
    if |s| > 1 {
      LeadingDigitPositive(s[..|s| - 1]);
    }
  }

  /** Itoa is the only canonical text of a value: printing a parsed canonical text gives it back. */
  lemma {:induction false} FormatDigitsValue(s: string)
    requires Canonical(s)
    ensures FormatNat(DigitsValue(s)) == s
    decreases |s|
  {
    if |s| > 1 {
      var init := s[..|s| - 1];
      var d := DigitValue(s[|s| - 1]);
      LeadingDigitPositive(init);
      FormatDigitsValue(init);
      var n := DigitsValue(s);
      assert n == 10 * DigitsValue(init) + d;
      assert n / 10 == DigitsValue(init) && n % 10 == d;
      assert DigitChar(d) == s[|s| - 1];
      assert s == init + [s[|s| - 1]];
    }
  }

  function Pow10(k: nat): nat
  {
    if k == 0 then 1 else 10 * Pow10(k - 1)
  }

  /**
   * The decimal digits of `n` left-padded with zeros to `width` characters
   * (the time package's appendInt); never shorter than one digit and never
   * truncated when `n` needs more than `width` digits.
   */
  function Pad(n: nat, width: nat): (s: string)
    ensures |s| >= 1 && |s| >= width
    ensures AllDigits(s)
    ensures DigitsValue(s) == n
    decreases n, width
  {
    if n < 10 && width <= 1 then [DigitChar(n)]
    else
      var s := Pad(n / 10, if width == 0 then 0 else width - 1) + [DigitChar(n % 10)];
      assert s[..|s| - 1] == Pad(n / 10, if width == 0 then 0 else width - 1);
      s
  }

  /** A number below 10^width fills exactly `width` characters. */
  lemma {:induction false} PadWidth(n: nat, width: nat)
    requires 1 <= width && n < Pow10(width)
    ensures |Pad(n, width)| == width
    decreases width
  {
    if !(n < 10 && width <= 1) {
      assert width >= 2;
      PadWidth(n / 10, width - 1);
    }
  }

  /** Padding the value of a digit string to its own length gives the string back, leading zeros included. */
  lemma {:induction false} PadDigitsValue(s: string)
    requires |s| >= 1 && AllDigits(s)
    ensures Pad(DigitsValue(s), |s|) == s
    decreases |s|
  {
    var init := s[..|s| - 1];
    var n := DigitsValue(s);
    var d := DigitValue(s[|s| - 1]);
    assert n == 10 * DigitsValue(init) + d;
    assert n / 10 == DigitsValue(init) && n % 10 == d;
    if |s| > 1 {
      PadDigitsValue(init);
      assert s == init + [s[|s| - 1]];
    }
  }
}

=== FILE: py_codec.dfy ===
/**
 * The Python server's codec: read_message receives one byte at a time until
 * ':', converts the text before it with int(), then receives exactly that
 * many bytes, each call asking only for the bytes still missing.
 * send_message writes the encoded message as given, with no length prefix.
 * Messages are modelled as their encoded bytes; UTF-8 encoding and decoding
 * are not modelled.
 */
module PyCodec {
  import opened Results
  import opened Seqs
  import opened Wire
  import Numbers

  /** How a call of read_message ends. */
  datatype Outcome =
    | Returns(payload: seq<byte>)
    | RaisesValueError       // the length text is not an integer
    | RaisesConnectionError  // the peer closed before the payload was complete
    | NeverReturns           // the peer closed before ':'; recv(1) keeps returning b""

  /** read_message's reading of a stream, in terms of the reference decoder. */
  function Expected(d: Decoded): Outcome
  {
    match d
    case Payload(p) => Returns(p)
    case NoDelimiter => NeverReturns
    case BadLength => RaisesValueError
    case NegativeLength => Returns([])  // the receive loop does not run
    case Truncated => RaisesConnectionError
  }

  /**
   * The first loop of read_message: receive single bytes until ':'. When the
   * peer has closed, recv(1) returns b"", which is not ':', and the loop
   * repeats forever; that outcome is reported as `hangs`.
   */
  method ReadLength(sock: seq<Chunk>) returns (hangs: bool, lengthText: seq<byte>, pending: seq<Chunk>)
    ensures hangs <==> Colon !in Flat(sock)
    ensures !hangs ==> FirstIndex(Flat(sock), Colon) == Some(|lengthText|)
    ensures !hangs ==> lengthText == Flat(sock)[..|lengthText|] && Flat(pending) == Flat(sock)[|lengthText| + 1..]
  {
    lengthText := [];
    pending := sock;
    while true
      invariant lengthText + Flat(pending) == Flat(sock)
      invariant Colon !in lengthText
      decreases |Flat(pending)|
    {
      var got := Recv(pending, 1);
      if got.data == [] {
        assert Flat(sock) == lengthText;
        return true, lengthText, [];
      }
      assert |got.data| == 1;
      pending := got.rest;
      if got.data == [Colon] {
        DelimiterAfterText(lengthText, Flat(pending), Flat(sock));
        return false, lengthText, pending;
      }
      assert got.data[0] != Colon;
      lengthText := lengthText + got.data;
    }
  }

  /**
   * The second loop of read_message: receive until `total` bytes are
   * collected, raising ConnectionError on an empty receive. A length below
   * one reads nothing.
   */
  method ReadPayload(sock: seq<Chunk>, total: int) returns (complete: bool, received: seq<byte>)
    ensures complete <==> total <= |Flat(sock)|
    ensures complete ==> received == Flat(sock)[..if total < 0 then 0 else total]
  {
    received := [];
    var pending := sock;
    while |received| < total
      invariant |received| <= total || received == []
      invariant received + Flat(pending) == Flat(sock)
      decreases |Flat(pending)|
    {
      var got := Recv(pending, total - |received|);
      if got.data == [] {
        return false, received;
      }
      received := received + got.data;
      pending := got.rest;
    }
    return true, received;
  }

  /** read_message: its outcome depends only on the delivered bytes, not on how they were split. */
  method ReadMessage(sock: seq<Chunk>) returns (r: Outcome)
    ensures r == Expected(Decode(Flat(sock)))
  {
    var hangs, lengthText, pending := ReadLength(sock);
    if hangs {
      return NeverReturns;
    }
    var totalLength := Numbers.ParseInt(Text(lengthText));
    if totalLength.None? {
      return RaisesValueError;
    }
    var complete, received := ReadPayload(pending, totalLength.value);
    if !complete {
      return RaisesConnectionError;
    }
    return Returns(received);
  }

  /** A framed payload is received intact however the peer splits it into deliveries. */
  method ReadFrame(p: seq<byte>, rest: seq<byte>, sock: seq<Chunk>) returns (r: Outcome)
    requires Flat(sock) == Frame(p) + rest
    ensures r == Returns(p)
  {
    r := ReadMessage(sock);
    DecodeFrame(p, rest);
  }

  /**
   * send_message: send the message bytes unchanged, then the rest of them
   * after each short send, until all are sent; a failing send raises.
   */
  method SendMessage(msg: seq<byte>, sends: seq<Write>) returns (wire: seq<byte>, raised: bool)
    ensures |wire| <= |msg| && wire == msg[..|wire|]
    ensures !raised ==> wire == msg
    ensures raised ==> exists i :: 0 <= i < |sends| && sends[i].Failed?
    ensures (forall i :: 0 <= i < |sends| ==> sends[i].Accepted?) ==> !raised
  {
    var ok;
    wire, ok := WriteAll(msg, sends);
    raised := !ok;
  }
}

=== FILE: results.dfy ===
/** Failure-carrying values shared by every module of the model. */
module Results {

  /** A value that may be missing, as a failed conversion or an absent key. */
  datatype Option<T> = None | Some(value: T)

  /** A value or the reason it could not be produced. */
  datatype Result<T, E> = Ok(value: T) | Err(error: E)
}

=== FILE: seqs.dfy ===
/**
 * Sequence helpers with the semantics of the Go standard library calls the
 * service relies on: strings.Split with a one-character separator,
 * strings.Contains, strings.Join, and the `s[0:len(s)-1]` trim.
 */
module Seqs {
  import opened Results

  /** Position of the first occurrence of `x` in `s`. */
  function FirstIndex<T(==)>(s: seq<T>, x: T): (r: Option<nat>)
    ensures r.None? <==> x !in s
    ensures r.Some? ==> r.value < |s| && s[r.value] == x && x !in s[..r.value]
  {
    if |s| == 0 then None
    else if s[0] == x then Some(0)
    else
      match FirstIndex(s[1..], x)
      case None => None
      case Some(i) =>
        assert s[1..][..i] == s[1..i + 1];
        assert s[..i + 1] == [s[0]] + s[1..i + 1];
        Some(i + 1)
  }

  /** An occurrence with none before it is the first occurrence. */
  lemma {:induction false} FirstIndexAt<T>(s: seq<T>, x: T, k: nat)
    requires k < |s| && s[k] == x
    requires forall j :: 0 <= j < k ==> s[j] != x
    ensures FirstIndex(s, x) == Some(k)
    decreases k
  {
    if k > 0 {
      assert s[0] != x;
      FirstIndexAt(s[1..], x, k - 1);
    }
  }

  /** The first occurrence of `x` in `a` is also its first occurrence in `a + b`. */
  lemma FirstIndexPrefix<T>(a: seq<T>, b: seq<T>, x: T)
    requires FirstIndex(a, x).Some?
    ensures FirstIndex(a + b, x) == FirstIndex(a, x)
  {
    var i := FirstIndex(a, x).value;
    assert FirstIndex(a + b, x) == Some(i) by {
      forall j | 0 <= j < i ensures (a + b)[j] != x {
        assert a[..i][j] == a[j];
      }
      FirstIndexAt(a + b, x, i);
    }
  }

  /** Past a stretch without `x`, the first occurrence is found in what follows. */
  lemma {:induction false} FirstIndexAfter<T>(a: seq<T>, b: seq<T>, x: T)
    requires x !in a && FirstIndex(b, x).Some?
    ensures FirstIndex(a + b, x) == Some(|a| + FirstIndex(b, x).value)
  {
    var i := FirstIndex(b, x).value;
    assert FirstIndex(a + b, x) == Some(|a| + i) by {
      forall j | 0 <= j < |a| + i ensures (a + b)[j] != x {
        if j < |a| {
          assert a[j] in a;
        } else {
          assert b[..i][j - |a|] == b[j - |a|];
        }
      }
      FirstIndexAt(a + b, x, |a| + i);
    }
  }

  /** `parts` joined with one `sep` between neighbours (strings.Join). */
  function Join<T>(parts: seq<seq<T>>, sep: T): seq<T>
  {
    if |parts| == 0 then []
    else if |parts| == 1 then parts[0]
    else parts[0] + [sep] + Join(parts[1..], sep)
  }

  /** Every part followed by `sep`, concatenated: how a message is accumulated record by record. */
  function Terminated<T>(parts: seq<seq<T>>, sep: T): seq<T>
  {
    if |parts| == 0 then [] else parts[0] + [sep] + Terminated(parts[1..], sep)
  }

  /**
   * strings.Split(s, sep) for a one-element separator: the pieces between
   * consecutive separators, always at least one (Split("", sep) is [""]).
   */
  function Split<T(==)>(s: seq<T>, sep: T): (parts: seq<seq<T>>)
    ensures |parts| >= 1
    ensures forall i :: 0 <= i < |parts| ==> sep !in parts[i]
    ensures Join(parts, sep) == s
    decreases |s|
  {
    match FirstIndex(s, sep)
    case None => [s]
    case Some(i) =>
      var rest := Split(s[i + 1..], sep);
      assert ([s[..i]] + rest)[1..] == rest;
      assert s == s[..i] + [sep] + s[i + 1..];
      [s[..i]] + rest
  }

  /** Splitting a separator-free part, a separator and more: that part, then the pieces of the rest. */
  lemma {:induction false} SplitCons<T>(p: seq<T>, rest: seq<T>, sep: T)
    requires sep !in p
    ensures Split(p + [sep] + rest, sep) == [p] + Split(rest, sep)
  {
    var s := p + [sep] + rest;
    assert s[..|p|] == p && s[|p| + 1..] == rest;
    assert FirstIndex(s, sep) == Some(|p|) by {
      forall j | 0 <= j < |p| ensures s[j] != sep {
        assert p[j] in p;
      }
      FirstIndexAt(s, sep, |p|);
    }
  }

  /** Splitting undoes joining when no part contains the separator. */
  lemma {:induction false} SplitJoin<T>(parts: seq<seq<T>>, sep: T)
    requires |parts| >= 1
    requires forall i :: 0 <= i < |parts| ==> sep !in parts[i]
    ensures Split(Join(parts, sep), sep) == parts
    decreases |parts|
  {
    if |parts| > 1 {
      var p, rest := parts[0], Join(parts[1..], sep);
      assert Join(parts, sep) == p + [sep] + rest;
      SplitCons(p, rest, sep);
      SplitJoin(parts[1..], sep);
      assert parts == [p] + parts[1..];
    } else {
      assert FirstIndex(parts[0], sep) == None;
    }
  }

  /** `sub` occurs in `s` starting at position `i`. */
  ghost predicate OccursAt<T>(s: seq<T>, sub: seq<T>, i: int)
  {
    0 <= i && i + |sub| <= |s| && s[i..i + |sub|] == sub
  }

  /** strings.Contains: `sub` occurs somewhere in `s` (the empty `sub` always does). */
  function Contains<T(==)>(s: seq<T>, sub: seq<T>): (b: bool)
    ensures b <==> exists i :: OccursAt(s, sub, i)
    decreases |s|
  {
    if |sub| > |s| then false
    else if s[..|sub|] == sub then assert OccursAt(s, sub, 0); true
    else
      var b := Contains(s[1..], sub);
      ContainsShift(s, sub);
      b
  }

  /** A slice of the tail is the slice of the whole shifted by one. */
  lemma TailSlice<T>(s: seq<T>, i: nat, j: nat)
    requires i <= j < |s|
    ensures s[1..][i..j] == s[i + 1..j + 1]
  {
    forall k | 0 <= k < j - i ensures s[1..][i..j][k] == s[i + 1..j + 1][k] {
      assert s[1..][i..j][k] == s[i + 1 + k];
    }
  }

  /** An occurrence in `s` past position 0 is an occurrence in `s[1..]`, and back. */
  lemma ContainsShift<T>(s: seq<T>, sub: seq<T>)
    requires |s| > 0
    requires !OccursAt(s, sub, 0)
    ensures (exists i :: OccursAt(s, sub, i)) <==> (exists i :: OccursAt(s[1..], sub, i))
  {
    if exists i :: OccursAt(s, sub, i) {
      var i :| OccursAt(s, sub, i);
      assert i > 0;
      TailSlice(s, i - 1, i - 1 + |sub|);
      assert OccursAt(s[1..], sub, i - 1);
    }
    if exists i :: OccursAt(s[1..], sub, i) {
      var i :| OccursAt(s[1..], sub, i);
      TailSlice(s, i, i + |sub|);
      assert OccursAt(s, sub, i + 1);
    }
  }

  /** `s[0:len(s)-1]` when `s` is not empty, `s` itself otherwise. */
  function TrimLast<T>(s: seq<T>): seq<T>
  {
    if |s| > 0 then s[..|s| - 1] else s
  }

  /** Removing the final terminator of an accumulated message leaves the parts joined. */
  lemma {:induction false} TrimTerminated<T>(parts: seq<seq<T>>, sep: T)
    ensures TrimLast(Terminated(parts, sep)) == Join(parts, sep)
    decreases |parts|
  {
    if |parts| > 1 {
      TrimTerminated(parts[1..], sep);
      var t := Terminated(parts[1..], sep);
      assert |t| > 0 by { assert |t| >= |parts[1]| + 1; }
      assert Terminated(parts, sep) == parts[0] + [sep] + t;
      assert TrimLast(Terminated(parts, sep)) == parts[0] + [sep] + TrimLast(t);
    } else if |parts| == 1 {
      assert Terminated(parts, sep) == parts[0] + [sep];
    }
  }

  /** Accumulating one more part appends it and its terminator. */
  lemma {:induction false} TerminatedSnoc<T>(parts: seq<seq<T>>, p: seq<T>, sep: T)
    ensures Terminated(parts + [p], sep) == Terminated(parts, sep) + p + [sep]
    decreases |parts|
  {
    if |parts| == 0 {
      assert parts + [p] == [p];
    } else {
      AppendTail(parts, [p]);
      TerminatedSnoc(parts[1..], p, sep);
    }
  }

  /** An accumulated message is empty exactly when no part was accumulated. */
  lemma TerminatedEmpty<T>(parts: seq<seq<T>>, sep: T)
    ensures |Terminated(parts, sep)| == 0 <==> |parts| == 0
  {
  }

  /** Dropping the head of a concatenation whose first part is non-empty. */
  lemma AppendTail<T>(a: seq<T>, b: seq<T>)
    requires |a| > 0
    ensures (a + b)[0] == a[0] && (a + b)[1..] == a[1..] + b
  {
  }

  /** The prefix and the last element of a sequence extended by one. */
  lemma SnocPrefix<T>(s: seq<T>, x: T)
    ensures (s + [x])[..|s|] == s && (s + [x])[|s|] == x
  {
  }

  /** Concatenation is associative; stated once, for every element type. */
  lemma AppendAssoc<T>(a: seq<T>, b: seq<T>, c: seq<T>)
    ensures a + (b + c) == (a + b) + c
  {
  }

  /** The values f yields, in order, skipping the elements it maps to None. */
  function FilterMap<A, B>(f: A -> Option<B>, s: seq<A>): (r: seq<B>)
    ensures |r| <= |s|
  {
    if |s| == 0 then []
    else
      match f(s[0])
      case Some(y) => [y] + FilterMap(f, s[1..])
      case None => FilterMap(f, s[1..])
  }

  lemma {:induction false} FilterMapAppend<A, B>(f: A -> Option<B>, a: seq<A>, b: seq<A>)
    ensures FilterMap(f, a + b) == FilterMap(f, a) + FilterMap(f, b)
    decreases |a|
  {
    if |a| == 0 {
      assert a + b == b;
    } else {
      AppendTail(a, b);
      FilterMapAppend(f, a[1..], b);
    }
  }

  /** y is kept exactly when some element maps to it. */
  lemma {:induction false} FilterMapMembers<A, B>(f: A -> Option<B>, s: seq<A>, y: B)
    ensures y in FilterMap(f, s) <==> exists i :: 0 <= i < |s| && f(s[i]) == Some(y)
    decreases |s|
  {
    if |s| > 0 {
      var rest := s[1..];
      FilterMapMembers(f, rest, y);
      if y in FilterMap(f, rest) {
        var i :| 0 <= i < |rest| && f(rest[i]) == Some(y);
        assert f(s[i + 1]) == Some(y);
      }
      if exists i :: 0 <= i < |s| && f(s[i]) == Some(y) {
        var i :| 0 <= i < |s| && f(s[i]) == Some(y);
        if i > 0 {
          assert f(rest[i - 1]) == Some(y);
        }
      }
    }
  }

  /** All parts concatenated in order. */
  function Concat<T>(parts: seq<seq<T>>): seq<T>
  {
    if |parts| == 0 then [] else parts[0] + Concat(parts[1..])
  }

  lemma {:induction false} ConcatAppend<T>(a: seq<seq<T>>, b: seq<seq<T>>)
    ensures Concat(a + b) == Concat(a) + Concat(b)
    decreases |a|
  {
    if |a| > 0 {
      assert (a + b)[1..] == a[1..] + b;
      ConcatAppend(a[1..], b);
    } else {
      assert a + b == b;
    }
  }
}

=== FILE: server.dfy ===
/**
 * The server's request logic. Every locked critical section of the Go server
 * is one atomic step on an immutable state: the draw state guarded by one
 * mutex, and the bet store guarded by the other. Sockets, goroutines and
 * the codec the server imports are abstracted: a handler is given the
 * payload it read and returns the reply it would send, if any.
 */
module Server {
  import opened Results
  import opened Seqs
  import opened Numbers
  import opened Bets

  const WinnersMarker: string := "Winners, please?"
  const StoredReply: string := "Apuesta almacenada"
  const NoWinnersYet: string := "No winners yet"

  datatype Request = WinnerQuery | BetBatch

  /** Routing in handleClientConnection: a payload holding the marker is a winner query, anything else a bet batch. */
  function Classify(payload: string): (r: Request)
    ensures r == WinnerQuery <==> exists i :: OccursAt(payload, WinnersMarker, i)
  {
    if Contains(payload, WinnersMarker) then WinnerQuery else BetBatch
  }

  // ---------------------------------------------------------------------------
  // Bet batches

  /** One record of a batch: split on ',', skipped below six fields, otherwise NewBet of the first six. */
  function ParseRecord(record: string): Option<Bet>
  {
    var fields := Split(record, ',');
    if |fields| < 6 then None
    else
      match NewBet(fields[0], fields[1], fields[2], fields[3], fields[4], fields[5])
      case Ok(b) => Some(b)
      case Err(_) => None
  }

  /** The bets that survive parsing, in record order. */
  function ParseRecords(records: seq<string>): (bets: seq<Bet>)
    ensures |bets| <= |records|
    ensures forall i :: 0 <= i < |bets| ==> WellFormed(bets[i])
  {
    ParsedWellFormed(records);
    FilterMap(ParseRecord, records)
  }

  /** handleStoreBetsMessage's parsing: split the payload on ';' and keep the records that parse. */
  function ParseBatch(payload: string): seq<Bet>
  {
    ParseRecords(Split(payload, ';'))
  }

  /** Every bet a record parses to is well formed. */
  lemma ParsedWellFormed(records: seq<string>)
    ensures forall i :: 0 <= i < |FilterMap(ParseRecord, records)| ==> WellFormed(FilterMap(ParseRecord, records)[i])
  {
    var bets := FilterMap(ParseRecord, records);
    forall i | 0 <= i < |bets| ensures WellFormed(bets[i]) {
      FilterMapMembers(ParseRecord, records, bets[i]);
    }
  }

  /** Parsing distributes over concatenated record lists: bets keep the order of their records. */
  lemma ParseRecordsAppend(a: seq<string>, b: seq<string>)
    ensures ParseRecords(a + b) == ParseRecords(a) + ParseRecords(b)
  {
    FilterMapAppend(ParseRecord, a, b);
  }

  /** A single record contributes its bet when it parses, and nothing otherwise. */
  lemma ParseRecordsSingle(record: string)
    ensures ParseRecords([record]) == (match ParseRecord(record) case Some(b) => [b] case None => [])
  {
    assert [record][1..] == [];
  }

  /** A bet is handed to the store exactly when some record of the batch parses to it. */
  lemma {:induction false} ParseRecordsMembers(records: seq<string>, b: Bet)
    ensures b in ParseRecords(records) <==> exists i :: 0 <= i < |records| && ParseRecord(records[i]) == Some(b)
  {
    FilterMapMembers(ParseRecord, records, b);
  }

  /** A record whose first six fields came from a well-formed bet's row parses back to that bet. */
  lemma {:induction false} ParseRecordOfRow(b: Bet)
    requires WellFormed(b)
    requires forall i :: 0 <= i < 6 ==> ',' !in BetRow(b)[i]
    ensures ParseRecord(Join(BetRow(b), ',')) == Some(b)
  {
    SplitJoin(BetRow(b), ',');
    NewBetOfRow(b);
  }

  /** The state of the bet store's critical section and what the handler replies. */
  datatype StoreOutcome = StoreOutcome(store: Store, reply: string)

  /**
   * handleStoreBetsMessage: store the surviving bets and reply with the fixed
   * acknowledgement, whatever the number of bets parsed or stored.
   */
  function HandleStoreBets(store: Store, payload: string): (r: StoreOutcome)
    ensures r.reply == StoredReply
    ensures |r.store| == |store| + |ParseBatch(payload)|
    ensures r.store[..|store|] == store
    ensures LoadBets(store).Ok? ==> LoadBets(r.store) == Ok(LoadBets(store).value + ParseBatch(payload))
  {
    var bets := ParseBatch(payload);
    assert LoadBets(store).Ok? ==> LoadBets(StoreBets(store, bets)) == Ok(LoadBets(store).value + bets) by {
      if LoadBets(store).Ok? {
        StoreLoadRoundTrip(store, bets);
      }
    }
    StoreOutcome(StoreBets(store, bets), StoredReply)
  }

  // ---------------------------------------------------------------------------
  // The draw barrier

  datatype DrawState = DrawState(
    winnerRevealed: bool,
    agenciesWaiting: map<int, string>,
    numberOfAgencies: int)

  /** The state NewServer creates. */
  function Initial(numberOfAgencies: int): DrawState
  {
    DrawState(false, map[], numberOfAgencies)
  }

  /** Go's map read: the stored string, or "" for an absent key. */
  function Lookup(m: map<int, string>, agency: int): string
  {
    if agency in m then m[agency] else ""
  }

  /** The agency a winner query names: its first ','-field as an integer. */
  function QueryAgency(payload: string): Option<int>
  {
    ParseInt(Split(payload, ',')[0])
  }

  datatype QueryOutcome = QueryOutcome(state: DrawState, reply: Option<string>)

  /**
   * handleAgencyWaitingMessage. A malformed agency gets no reply. Before the
   * draw the agency is registered with an empty entry and told there are no
   * winners yet; after it, the agency's entry is read, without removing it,
   * and sent without its last character.
   */
  function HandleAgencyWaiting(s: DrawState, payload: string): (r: QueryOutcome)
    ensures QueryAgency(payload).None? ==> r == QueryOutcome(s, None)
    ensures QueryAgency(payload).Some? ==> r.reply.Some?
    ensures r.state.winnerRevealed == s.winnerRevealed && r.state.numberOfAgencies == s.numberOfAgencies
    ensures s.winnerRevealed ==> r.state == s
    ensures s.winnerRevealed && QueryAgency(payload).Some? ==>
              r.reply == Some(TrimLast(Lookup(s.agenciesWaiting, QueryAgency(payload).value)))
    ensures !s.winnerRevealed && QueryAgency(payload).Some? ==>
              && r.reply == Some(NoWinnersYet)
              && r.state.agenciesWaiting.Keys == s.agenciesWaiting.Keys + {QueryAgency(payload).value}
              && r.state.agenciesWaiting[QueryAgency(payload).value] == ""
              && (forall a :: a in s.agenciesWaiting && a != QueryAgency(payload).value ==>
                    r.state.agenciesWaiting[a] == s.agenciesWaiting[a])
  {
    match QueryAgency(payload)
    case None => QueryOutcome(s, None)
    case Some(agency) =>
      if s.winnerRevealed then
        QueryOutcome(s, Some(TrimLast(Lookup(s.agenciesWaiting, agency))))
      else
        QueryOutcome(s.(agenciesWaiting := s.agenciesWaiting[agency := ""]), Some(NoWinnersYet))
  }

  /** Asking twice is asking once, before and after the draw: same state, same reply. */
  lemma QueryIdempotent(s: DrawState, payload: string)
    ensures var once := HandleAgencyWaiting(s, payload);
            HandleAgencyWaiting(once.state, payload) == once
  {
  }

  /** The draw's update for one bet: a winning bet appends "document;" to its agency's entry. */
  function AddWinner(m: map<int, string>, b: Bet): map<int, string>
  {
    if HasWon(b) then m[b.agency := Lookup(m, b.agency) + b.document + ";"] else m
  }

  /** The draw's loop over the loaded bets, in load order. */
  function AddWinners(m: map<int, string>, bets: seq<Bet>): map<int, string>
    decreases |bets|
  {
    if |bets| == 0 then m else AddWinners(AddWinner(m, bets[0]), bets[1..])
  }

  /** The documents of an agency's winning bets, in load order. */
  function WinningDocuments(bets: seq<Bet>, agency: int): seq<string>
  {
    if |bets| == 0 then []
    else if HasWon(bets[0]) && bets[0].agency == agency then [bets[0].document] + WinningDocuments(bets[1..], agency)
    else WinningDocuments(bets[1..], agency)
  }

  /** The agencies holding at least one winning bet. */
  function WinningAgencies(bets: seq<Bet>): set<int>
  {
    set i | 0 <= i < |bets| && HasWon(bets[i]) :: bets[i].agency
  }

  /** The winning agencies of a non-empty bet list: the first bet's agency if it won, plus the rest's. */
  lemma WinningAgenciesCons(bets: seq<Bet>)
    requires |bets| > 0
    ensures WinningAgencies(bets) == (if HasWon(bets[0]) then {bets[0].agency} else {}) + WinningAgencies(bets[1..])
  {
    var rest := bets[1..];
    forall a | a in WinningAgencies(bets)
      ensures a in (if HasWon(bets[0]) then {bets[0].agency} else {}) + WinningAgencies(rest)
    {
      var i :| 0 <= i < |bets| && HasWon(bets[i]) && bets[i].agency == a;
      if i > 0 {
        assert rest[i - 1] == bets[i];
      }
    }
    forall a | a in WinningAgencies(rest) ensures a in WinningAgencies(bets) {
      var i :| 0 <= i < |rest| && HasWon(rest[i]) && rest[i].agency == a;
      assert bets[i + 1] == rest[i];
    }
  }

  /** The draw's fold creates an entry for every agency with a winning bet, and keeps every existing one. */
  lemma {:induction false} AddWinnersKeys(m: map<int, string>, bets: seq<Bet>)
    ensures AddWinners(m, bets).Keys == m.Keys + WinningAgencies(bets)
    decreases |bets|
  {
    if |bets| > 0 {
      AddWinnersKeys(AddWinner(m, bets[0]), bets[1..]);
      WinningAgenciesCons(bets);
    } else {
      assert WinningAgencies(bets) == {};
    }
  }

  /**
   * The draw's fold seen per agency: each entry grows by "document;" for each
   * of the agency's winning bets, in load order.
   */
  lemma {:induction false} AddWinnersLookup(m: map<int, string>, bets: seq<Bet>, agency: int)
    ensures Lookup(AddWinners(m, bets), agency) == Lookup(m, agency) + Terminated(WinningDocuments(bets, agency), ';')
    decreases |bets|
  {
    if |bets| > 0 {
      var b := bets[0];
      AddWinnersLookup(AddWinner(m, b), bets[1..], agency);
      var docs := WinningDocuments(bets[1..], agency);
      if HasWon(b) && b.agency == agency {
        assert WinningDocuments(bets, agency) == [b.document] + docs;
        assert ([b.document] + docs)[1..] == docs;
        assert Terminated([b.document] + docs, ';') == b.document + ";" + Terminated(docs, ';');
      } else {
        assert Lookup(AddWinner(m, b), agency) == Lookup(m, agency);
      }
    }
  }

  /** The barrier condition: not drawn yet and exactly as many registered agencies as configured. */
  predicate ReadyToDraw(s: DrawState)
  {
    !s.winnerRevealed && |s.agenciesWaiting| == s.numberOfAgencies
  }

  /**
   * canRevealWinners. When the barrier condition holds and the store loads,
   * the winners are added to the map and the flag is set; a failed load
   * leaves the state untouched, and otherwise nothing happens.
   */
  function CanRevealWinners(s: DrawState, store: Store): (r: DrawState)
    ensures r.numberOfAgencies == s.numberOfAgencies
    ensures r.winnerRevealed <==> s.winnerRevealed || (ReadyToDraw(s) && LoadBets(store).Ok?)
    ensures !(ReadyToDraw(s) && LoadBets(store).Ok?) ==> r == s
    ensures ReadyToDraw(s) && LoadBets(store).Ok? ==>
              r.agenciesWaiting == AddWinners(s.agenciesWaiting, LoadBets(store).value)
  {
    if ReadyToDraw(s) then
      match LoadBets(store)
      case Err(_) => s
      case Ok(bets) => DrawState(true, AddWinners(s.agenciesWaiting, bets), s.numberOfAgencies)
    else s
  }

  // ---------------------------------------------------------------------------
  // The whole server as a transition system

  datatype Server = Server(draw: DrawState, store: Store)

  function NewServer(numberOfAgencies: int): Server
  {
    Server(Initial(numberOfAgencies), [])
  }

  datatype HandlerOutcome = HandlerOutcome(server: Server, reply: Option<string>)

  /**
   * handleClientConnection, from the payload read to the reply sent: a winner
   * query goes to handleAgencyWaitingMessage under the draw lock, a batch to
   * handleStoreBetsMessage under the store lock, and each touches only its
   * own half of the state.
   */
  function HandleClientConnection(s: Server, payload: string): (r: HandlerOutcome)
    ensures Classify(payload) == BetBatch ==>
              && r.server.draw == s.draw && r.reply == Some(StoredReply)
              && |s.store| <= |r.server.store| && r.server.store[..|s.store|] == s.store
              && r.server.store == StoreBets(s.store, ParseBatch(payload))
    ensures Classify(payload) == WinnerQuery ==>
              && r.server.store == s.store
              && r.server.draw == HandleAgencyWaiting(s.draw, payload).state
              && r.reply == HandleAgencyWaiting(s.draw, payload).reply
  {
    match Classify(payload)
    case WinnerQuery =>
      var q := HandleAgencyWaiting(s.draw, payload);
      HandlerOutcome(s.(draw := q.state), q.reply)
    case BetBatch =>
      var st := HandleStoreBets(s.store, payload);
      HandlerOutcome(s.(store := st.store), Some(st.reply))
  }

  /**
   * The atomic steps the server interleaves: a handler running on a received
   * payload, or the draw check Run makes after accepting a connection.
   */
  datatype Event = Handle(payload: string) | AfterAccept

  function Step(s: Server, e: Event): Server
  {
    match e
    case Handle(payload) => HandleClientConnection(s, payload).server
    case AfterAccept => s.(draw := CanRevealWinners(s.draw, s.store))
  }

  function Run(s: Server, events: seq<Event>): Server
    decreases |events|
  {
    if |events| == 0 then s else Run(Step(s, events[0]), events[1..])
  }

  /** Before the draw every waiting entry is empty; the stored rows always load. */
  ghost predicate Inv(s: Server)
  {
    && (!s.draw.winnerRevealed ==> forall a :: a in s.draw.agenciesWaiting ==> s.draw.agenciesWaiting[a] == "")
    && LoadBets(s.store).Ok?
  }

  lemma InitialInv(n: int)
    ensures Inv(NewServer(n))
  {
    assert LoadBets([]) == Ok([]);
  }

  lemma StepInv(s: Server, e: Event)
    requires Inv(s)
    ensures Inv(Step(s, e))
  {
    match e
    case Handle(payload) =>
      if Classify(payload) == BetBatch {
        assert LoadBets(HandleStoreBets(s.store, payload).store).Ok?;
      }
    case AfterAccept =>
  }

  lemma {:induction false} RunInv(s: Server, events: seq<Event>)
    requires Inv(s)
    ensures Inv(Run(s, events))
    decreases |events|
  {
    if |events| > 0 {
      StepInv(s, events[0]);
      RunInv(Step(s, events[0]), events[1..]);
    }
  }

  /** Before the draw, a winner query naming an agency registers it and is told there are no winners yet. */
  lemma QueryRegisters(s: Server, payload: string)
    requires !s.draw.winnerRevealed
    requires Classify(payload) == WinnerQuery && QueryAgency(payload).Some?
    ensures Step(s, Handle(payload)).draw.agenciesWaiting.Keys
              == s.draw.agenciesWaiting.Keys + {QueryAgency(payload).value}
    ensures HandleClientConnection(s, payload).reply == Some(NoWinnersYet)
  {
  }

  /** A batch step stores exactly the parsed bets: the store then loads as the old bets followed by them. */
  lemma BatchStored(s: Server, payload: string)
    requires Inv(s) && Classify(payload) == BetBatch
    ensures LoadBets(Step(s, Handle(payload)).store) == Ok(LoadBets(s.store).value + ParseBatch(payload))
  {
    StoreLoadRoundTrip(s.store, ParseBatch(payload));
  }

  /** Running one sequence of events and then another is running their concatenation. */
  lemma {:induction false} RunAppend(s: Server, a: seq<Event>, b: seq<Event>)
    ensures Run(s, a + b) == Run(Run(s, a), b)
    decreases |a|
  {
    if |a| > 0 {
      assert (a + b)[0] == a[0] && (a + b)[1..] == a[1..] + b;
      RunAppend(Step(s, a[0]), a[1..], b);
    } else {
      assert a + b == b;
    }
  }

  /** One handler step per payload, in order. */
  function Handles(payloads: seq<string>): seq<Event>
  {
    if |payloads| == 0 then [] else [Handle(payloads[0])] + Handles(payloads[1..])
  }

  /** Every payload of the list is a winner query. */
  predicate AllQueries(payloads: seq<string>)
  {
    |payloads| == 0 || (Classify(payloads[0]) == WinnerQuery && AllQueries(payloads[1..]))
  }

  /** The agencies a list of winner queries names. */
  function QueriedAgencies(payloads: seq<string>): set<int>
  {
    if |payloads| == 0 then {}
    else (match QueryAgency(payloads[0]) case Some(a) => {a} case None => {}) + QueriedAgencies(payloads[1..])
  }

  /**
   * Before the draw, a run of winner queries registers exactly the agencies
   * they name, leaves the store alone, and does not draw.
   */
  lemma {:induction false} RunQueries(s: Server, payloads: seq<string>)
    requires !s.draw.winnerRevealed
    requires AllQueries(payloads)
    ensures var t := Run(s, Handles(payloads));
            && !t.draw.winnerRevealed
            && t.draw.numberOfAgencies == s.draw.numberOfAgencies
            && t.draw.agenciesWaiting.Keys == s.draw.agenciesWaiting.Keys + QueriedAgencies(payloads)
            && t.store == s.store
    decreases |payloads|
  {
    if |payloads| > 0 {
      var es := Handles(payloads);
      assert es[1..] == Handles(payloads[1..]);
      var u := Step(s, Handle(payloads[0]));
      assert u.draw.agenciesWaiting.Keys
               == s.draw.agenciesWaiting.Keys + (match QueryAgency(payloads[0]) case Some(a) => {a} case None => {});
      RunQueries(u, payloads[1..]);
    }
  }

  /** Before the draw and with a loadable store, the draw check fires exactly when the registered agencies number as many as configured. */
  lemma DrawCheckFires(t: Server, agencies: set<int>)
    requires !t.draw.winnerRevealed && LoadBets(t.store).Ok?
    requires t.draw.agenciesWaiting.Keys == agencies
    ensures Step(t, AfterAccept).draw.winnerRevealed <==> |agencies| == t.draw.numberOfAgencies
  {
    assert |t.draw.agenciesWaiting| == |t.draw.agenciesWaiting.Keys|;
  }

  /** A run of one event is that event's step. */
  lemma RunOne(t: Server, e: Event)
    ensures Run(t, [e]) == Step(t, e)
  {
    assert [e][1..] == [];
  }

  /** From a new server, winner queries register exactly the agencies they name, on an empty store that loads, without drawing. */
  lemma QueriesFromNew(n: int, payloads: seq<string>)
    requires AllQueries(payloads)
    ensures !Run(NewServer(n), Handles(payloads)).draw.winnerRevealed
    ensures Run(NewServer(n), Handles(payloads)).draw.numberOfAgencies == n
    ensures Run(NewServer(n), Handles(payloads)).draw.agenciesWaiting.Keys == QueriedAgencies(payloads)
    ensures Run(NewServer(n), Handles(payloads)).store == []
  {
    var s := NewServer(n);
    assert s.draw.agenciesWaiting.Keys == {};
    RunQueries(s, payloads);
  }

  /**
   * The barrier is reachable, and only at the exact count: from a new server,
   * winner queries followed by the draw check reveal the winners exactly when
   * the queries name as many distinct agencies as configured.
   */
  lemma BarrierReached(n: int, payloads: seq<string>)
    requires AllQueries(payloads)
    ensures Run(NewServer(n), Handles(payloads) + [AfterAccept]).draw.winnerRevealed
            <==> |QueriedAgencies(payloads)| == n
  {
    var t := Run(NewServer(n), Handles(payloads));
    QueriesFromNew(n, payloads);
    assert LoadBets(t.store) == Ok([]);
    RunAppend(NewServer(n), Handles(payloads), [AfterAccept]);
    RunOne(t, AfterAccept);
    DrawCheckFires(t, QueriedAgencies(payloads));
  }

  /** Once the winners are revealed, no step changes the draw state again. */
  lemma StepFrozen(s: Server, e: Event)
    requires s.draw.winnerRevealed
    ensures Step(s, e).draw == s.draw
  {
  }

  /** The draw happens at most once: after it, every run leaves the draw state as it was. */
  lemma {:induction false} RunFrozen(s: Server, events: seq<Event>)
    requires s.draw.winnerRevealed
    ensures Run(s, events).draw == s.draw
    decreases |events|
  {
    if |events| > 0 {
      StepFrozen(s, events[0]);
      RunFrozen(Step(s, events[0]), events[1..]);
    }
  }

  /** The flag is only ever set, never cleared. */
  lemma {:induction false} RevealedStays(s: Server, events: seq<Event>)
    requires s.draw.winnerRevealed
    ensures Run(s, events).draw.winnerRevealed
  {
    RunFrozen(s, events);
  }

  /** A step sets the flag only as the draw check, and only at exact equality of waiting agencies and agency count. */
  lemma DrawOnlyAtBarrier(s: Server, e: Event)
    requires !s.draw.winnerRevealed && Step(s, e).draw.winnerRevealed
    ensures e == AfterAccept
    ensures |s.draw.agenciesWaiting| == s.draw.numberOfAgencies
  {
  }

  /** No step unregisters an agency. */
  lemma StepWaitingGrows(s: Server, e: Event)
    ensures s.draw.agenciesWaiting.Keys <= Step(s, e).draw.agenciesWaiting.Keys
  {
    if e == AfterAccept && ReadyToDraw(s.draw) && LoadBets(s.store).Ok? {
      AddWinnersKeys(s.draw.agenciesWaiting, LoadBets(s.store).value);
    }
  }

  /** Registered agencies are never dropped: the waiting set only grows. */
  lemma {:induction false} WaitingOnlyGrows(s: Server, events: seq<Event>)
    ensures s.draw.agenciesWaiting.Keys <= Run(s, events).draw.agenciesWaiting.Keys
    decreases |events|
  {
    if |events| > 0 {
      StepWaitingGrows(s, events[0]);
      WaitingOnlyGrows(Step(s, events[0]), events[1..]);
    }
  }

  /** How many steps of a run perform the draw (set the flag). */
  function Draws(s: Server, events: seq<Event>): nat
    decreases |events|
  {
    if |events| == 0 then 0
    else
      var t := Step(s, events[0]);
      (if !s.draw.winnerRevealed && t.draw.winnerRevealed then 1 else 0) + Draws(t, events[1..])
  }

  /** The bet scan that computes the winners runs at most once in any run, and never once the flag is set. */
  lemma {:induction false} AtMostOneDraw(s: Server, events: seq<Event>)
    ensures Draws(s, events) <= 1
    ensures s.draw.winnerRevealed ==> Draws(s, events) == 0
    decreases |events|
  {
    if |events| > 0 {
      var t := Step(s, events[0]);
      AtMostOneDraw(t, events[1..]);
      if s.draw.winnerRevealed {
        StepFrozen(s, events[0]);
      }
    }
  }

  /**
   * After the draw, an agency that asks receives the documents of its winning
   * bets joined with ';' ("" when it has none), as often as it asks.
   */
  lemma WinnersDelivered(s: Server, payload: string)
    requires Inv(s) && ReadyToDraw(s.draw)
    requires Classify(payload) == WinnerQuery && QueryAgency(payload).Some?
    ensures var t := Step(s, AfterAccept);
            var bets := LoadBets(s.store).value;
            && t.draw.winnerRevealed
            && HandleClientConnection(t, payload).reply
               == Some(Join(WinningDocuments(bets, QueryAgency(payload).value), ';'))
  {
    var agency := QueryAgency(payload).value;
    var bets := LoadBets(s.store).value;
    var t := Step(s, AfterAccept);
    assert t.draw == CanRevealWinners(s.draw, s.store);
    assert t.draw.agenciesWaiting == AddWinners(s.draw.agenciesWaiting, bets);
    var q := HandleAgencyWaiting(t.draw, payload);
    assert HandleClientConnection(t, payload).reply == q.reply;
    assert q.reply == Some(TrimLast(Lookup(t.draw.agenciesWaiting, agency)));
    var docs := WinningDocuments(bets, agency);
    AddWinnersLookup(s.draw.agenciesWaiting, bets, agency);
    assert Lookup(s.draw.agenciesWaiting, agency) == "";
    assert Lookup(t.draw.agenciesWaiting, agency) == Terminated(docs, ';');
    TrimTerminated(docs, ';');
    assert q.reply == Some(Join(docs, ';'));
  }
}

=== FILE: wire.dfy ===
/**
 * The length-prefixed wire format `<decimal byte length>:<payload>` and the
 * peer a codec talks to. A peer's incoming side is the list of deliveries a
 * receive call can return, each at least one byte; once the list is used up
 * the peer has closed and every receive returns nothing. A peer's outgoing
 * side is the list of outcomes of successive write calls.
 */
module Wire {
  import opened Results
  import opened Seqs
  import Numbers

  newtype byte = x: int | 0 <= x < 256

  /** One delivery from the peer: a non-empty run of bytes. */
  type Chunk = c: seq<byte> | |c| > 0 witness [0]

  const Colon: byte := 58

  /** Everything the peer delivers, in order. */
  function Flat(cs: seq<Chunk>): (bs: seq<byte>)
    ensures cs == [] <==> bs == []
  {
    if cs == [] then [] else cs[0] + Flat(cs[1..])
  }

  /** What one receive returned, and the deliveries still pending after it. */
  datatype Received = Received(data: seq<byte>, rest: seq<Chunk>)

  /**
   * One receive asking for at most `limit` bytes: the front of the next
   * delivery, cut at `limit`; nothing once the peer has closed.
   */
  function Recv(cs: seq<Chunk>, limit: nat): (r: Received)
    requires limit > 0
    ensures r.data + Flat(r.rest) == Flat(cs)
    ensures |r.data| <= limit
    ensures r.data == [] <==> cs == []
  {
    if cs == [] then Received([], [])
    else if |cs[0]| <= limit then Received(cs[0], cs[1..])
    else
      assert cs[0] == cs[0][..limit] + cs[0][limit..];
      Received(cs[0][..limit], Unread(cs[0], limit, cs[1..]))
  }

  /** The deliveries still unread once the first `used` bytes of `c` have been consumed. */
  function Unread(c: Chunk, used: nat, rest: seq<Chunk>): (cs: seq<Chunk>)
    requires used <= |c|
    ensures Flat(cs) == c[used..] + Flat(rest)
  {
    if used < |c| then
      var tail: Chunk := c[used..];
      assert ([tail] + rest)[1..] == rest;
      [tail] + rest
    else rest
  }

  /** A stream that is a colon-free text, a colon and more has its first colon right after the text. */
  lemma DelimiterAfterText(text: seq<byte>, rest: seq<byte>, whole: seq<byte>)
    requires whole == text + [Colon] + rest && Colon !in text
    ensures FirstIndex(whole, Colon) == Some(|text|)
    ensures whole[..|text|] == text && whole[|text| + 1..] == rest
  {
    assert FirstIndex([Colon] + rest, Colon) == Some(0);
    FirstIndexAfter(text, [Colon] + rest, Colon);
    assert text + ([Colon] + rest) == whole;
  }

  /** Cutting the stream just after a delimiter in the next delivery. */
  lemma {:induction false} DelimiterSplit(acc: seq<byte>, pending: seq<Chunk>, whole: seq<byte>, i: nat)
    requires acc + Flat(pending) == whole
    requires pending != [] && i < |pending[0]|
    ensures var line := acc + pending[0][..i + 1];
            && line == whole[..|line|]
            && Flat(Unread(pending[0], i + 1, pending[1..])) == whole[|line|..]
  {
    var delivery := pending[0];
    assert Flat(pending) == delivery + Flat(pending[1..]);
    var line := acc + delivery[..i + 1];
    assert delivery == delivery[..i + 1] + delivery[i + 1..];
    assert whole == line + (delivery[i + 1..] + Flat(pending[1..]));
  }

  /**
   * Cutting a stream read so far as `acc`, with the first delimiter at index
   * `i` of the next delivery: the text through the delimiter is a prefix of
   * the stream that ends with its only delimiter, and the unread deliveries
   * hold the rest of the stream.
   */
  lemma DelimiterCut(acc: seq<byte>, pending: seq<Chunk>, whole: seq<byte>, i: nat)
    requires acc + Flat(pending) == whole && Colon !in acc
    requires pending != [] && FirstIndex(pending[0], Colon) == Some(i)
    ensures var line := acc + pending[0][..i + 1];
            && line[|line| - 1] == Colon && Colon !in line[..|line| - 1]
            && line == whole[..|line|]
            && Flat(Unread(pending[0], i + 1, pending[1..])) == whole[|line|..]
  {
    var delivery := pending[0];
    var line := acc + delivery[..i + 1];
    assert line[..|line| - 1] == acc + delivery[..i];
    DelimiterSplit(acc, pending, whole, i);
  }

  /** Bytes read as text, one character per byte (digits and signs are ASCII). */
  function Text(bs: seq<byte>): (s: string)
    ensures |s| == |bs|
  {
    seq(|bs|, i requires 0 <= i < |bs| => (bs[i] as int) as char)
  }

  /** The ASCII bytes of the decimal digits of `n`. */
  function DecimalBytes(n: nat): (bs: seq<byte>)
    ensures Text(bs) == Numbers.FormatNat(n)
    ensures Colon !in bs
  {
    var t := Numbers.FormatNat(n);
    var bs := seq(|t|, i requires 0 <= i < |t| => (t[i] as int) as byte);
    assert forall i :: 0 <= i < |bs| ==> bs[i] != Colon by {
      forall i | 0 <= i < |bs| ensures bs[i] != Colon {
        assert Numbers.IsDigit(t[i]);
      }
    }
    bs
  }

  /** The frame of a payload: its byte length in decimal, a colon, the payload. */
  function Frame(p: seq<byte>): seq<byte>
  {
    DecimalBytes(|p|) + [Colon] + p
  }

  /** What a byte stream holds at its front, as both decoders read it. */
  datatype Decoded =
    | Payload(payload: seq<byte>)  // a complete frame
    | NoDelimiter                  // the stream ends before any ':'
    | BadLength                    // the text before ':' is not an integer
    | NegativeLength               // the length is an integer below zero
    | Truncated                    // fewer payload bytes than the length announces

  /** `bs` starts with a length text, a colon at `k`, and the payload `p` that the length announces. */
  ghost predicate FrameAt(bs: seq<byte>, k: int, p: seq<byte>)
  {
    && 0 <= k < |bs| && bs[k] == Colon && Colon !in bs[..k]
    && Numbers.ParseInt(Text(bs[..k])) == Some(|p|)
    && k + 1 + |p| <= |bs| && bs[k + 1..k + 1 + |p|] == p
  }

  /** The reference reading of one frame from the front of a stream. */
  function Decode(bs: seq<byte>): (r: Decoded)
    ensures r.NoDelimiter? <==> Colon !in bs
    ensures r.Payload? ==> exists k :: FrameAt(bs, k, r.payload)
  {
    match FirstIndex(bs, Colon)
    case None => NoDelimiter
    case Some(k) =>
      match Numbers.ParseInt(Text(bs[..k]))
      case None => BadLength
      case Some(n) =>
        if n < 0 then NegativeLength
        else if |bs| - (k + 1) < n then Truncated
        else
          var p := bs[k + 1..k + 1 + n];
          assert FrameAt(bs, k, p);
          Payload(p)
  }

  /** Round trip: a frame followed by anything decodes to its payload. */
  lemma DecodeFrame(p: seq<byte>, rest: seq<byte>)
    ensures Decode(Frame(p) + rest) == Payload(p)
  {
    var digits := DecimalBytes(|p|);
    var bs := Frame(p) + rest;
    var k := |digits|;
    assert bs == digits + ([Colon] + p + rest);
    FirstIndexPrefix(digits + [Colon], p + rest, Colon);
    assert (digits + [Colon]) + (p + rest) == bs;
    assert FirstIndex(digits + [Colon], Colon) == Some(k);
    assert bs[..k] == digits;
    Numbers.ParseFormatInt(|p|);
    assert bs[k + 1..k + 1 + |p|] == p;
  }

  /** A frame is decoded only when its length text is a non-negative integer the stream can satisfy. */
  lemma DecodeErrors(bs: seq<byte>, k: nat)
    requires k < |bs| && bs[k] == Colon && Colon !in bs[..k]
    ensures Numbers.ParseInt(Text(bs[..k])).None? ==> Decode(bs) == BadLength
    ensures (Numbers.ParseInt(Text(bs[..k])).Some? && Numbers.ParseInt(Text(bs[..k])).value > |bs| - (k + 1))
            ==> Decode(bs) == Truncated
  {
    assert FirstIndex(bs, Colon) == Some(k);
  }

  /** The outcome of one write call: how many bytes the connection took, or an error. */
  datatype Write = Accepted(n: nat) | Failed

  /**
   * The short-write loop shared by Go's SendMessage and Python's
   * send_message: write the whole message, then the rest of it after each
   * short write, stopping at the first error. The first call is made even
   * for an empty message. Once `writes` runs out, a call takes everything
   * it is given.
   */
  method WriteAll(msg: seq<byte>, writes: seq<Write>) returns (wire: seq<byte>, ok: bool)
    ensures |wire| <= |msg| && wire == msg[..|wire|]
    ensures ok ==> wire == msg
    ensures !ok ==> |wire| < |msg| || |msg| == 0
    ensures (forall i :: 0 <= i < |writes| ==> writes[i].Accepted?) ==> ok
    ensures !ok ==> exists i :: 0 <= i < |writes| && writes[i].Failed?
  {
    var pending := writes;
    wire := [];
    var first := true;
    while first || |wire| < |msg|
      invariant |wire| <= |msg| && wire == msg[..|wire|]
      invariant pending == writes[|writes| - |pending|..]
      invariant forall i :: 0 <= i < |writes| - |pending| ==> writes[i].Accepted?
      invariant first ==> wire == [] && pending == writes
      decreases |pending|, |msg| - |wire|, first
    {
      first := false;
      if pending == [] {
        wire := msg;
      } else {
        match pending[0]
        case Failed =>
          assert writes[|writes| - |pending|].Failed?;
          return wire, false;
        case Accepted(n) =>
          var taken := if n < |msg| - |wire| then n else |msg| - |wire|;
          wire := msg[..|wire| + taken];
          pending := pending[1..];
      }
    }
    return wire, true;
  }
}
